=== FILE: README.md ===
# Evenly bill splitter: a Dafny model of its core

Evenly is a React/Firestore application for splitting restaurant bills inside a
group. A group has members and receipts. A receipt has line items (price ×
quantity, shared by some members) and two optional percentages: SST (sales and
service tax) and a service charge. This project models the pure logic inside the
application as immutable datatypes and pure functions, and proves properties of
them:

- **Receipt arithmetic.** The receipt page's subtotal and tax breakdown
  (`calculateSubtotal`, `calculateTaxes`) and the group page's independent
  `calculateReceiptTotal`. Both are proved to agree on every receipt.
- **Per-member shares.** The user summary's `calculateUserTotal` and
  `getUserItems`, with the conservation of the split across members. It is
  proved exactly how the per-member figures relate to the receipt total (see
  Findings).
- **Document transforms.** The read-modify-write sequence transforms inside the
  Firestore mutators: items are replaced, appended, spliced and merged; members
  are added by array union, renamed, and filtered out; receipt ids are added
  and removed.
- **Display helpers.** The member-selection toggle, the id-to-name rendering
  (`getUserNames`), the tax dialog's prefill/submit normalisation, and the
  navigation bar's breadcrumb.

Money and percentages are `real`. A stored rate is an `Option<real>`, with
JavaScript truthiness reproduced: `null` and `0` both mean "no rate"
(`Entities.Truthy`, `Entities.Rate`). `userIds` is an optional sequence,
because the field is deleted when the last consumer is removed. Fresh ids,
timestamps and JavaScript's `Number` on typed text are parameters.

Modules, in dependency order:

- `Wrappers`: `Option`.
- `Seqs`: filter, join, duplicate-freedom, element sets.
- `Entities`: the documents.
- `ReceiptTotals`: receipt page totals.
- `GroupTotals`: group page total.
- `MemberShares`: the user summary.
- `Conservation`: conservation and how the shares relate to the receipt total.
- `Selection`: the `UserSelect` toggle.
- `Names`: `getUserNames`.
- `TaxForm`: the tax dialog and `updateReceiptTaxes`.
- `ItemEdits`: the item-list mutators.
- `GroupEdits`: the group-document mutators.
- `ReceiptEdits`: `createReceipt` and `updateReceiptSettings`.
- `Navbar`: the breadcrumb.

## Model

| member | source | states |
|---|---|---|
| ReceiptTotals.CalculateSubtotal | src/ReceiptPage.js:813-816 | 0 for a missing or empty list; otherwise the left fold of price × quantity over the lines |
| ReceiptTotals.SumLinesAppend | src/ReceiptPage.js:813-816 | the subtotal of two lists put together is the sum of their subtotals |
| ReceiptTotals.SumLinesPermutation | src/ReceiptPage.js:813-816 | the subtotal depends only on which lines there are (same multiset), not on their order |
| ReceiptTotals.SumLinesNonNegative | src/ReceiptPage.js:813-816 | with non-negative prices and quantities the subtotal is non-negative |
| ReceiptTotals.CalculateTaxes | src/ReceiptPage.js:818-834 | the SST and service-charge amounts are present exactly when their rate is truthy and are then rate% of the subtotal; the total is subtotal plus both amounts, all taken from the subtotal; with no truthy rate the total is the subtotal |
| ReceiptTotals.TaxesExample | src/ReceiptPage.js:818-834 | subtotal 100 with SST 6 and service charge 10 gives amounts 6 and 10 and a total of 116 |
| Entities.Rate | src/ReceiptPage.js:821-830 | the percentage a stored rate contributes under JavaScript truthiness: the stored value when there is one (so a stored 0 contributes 0), 0 for `null`, and non-zero exactly when the rate is truthy |
| GroupTotals.GroupSubtotal | src/GroupPage.js:294 | `items?.reduce(...) \|\| 0`: 0 for a missing list, and equal to the receipt page's `calculateSubtotal` on every list |
| GroupTotals.CalculateReceiptTotal | src/GroupPage.js:292-309 | the group page total is subtotal × (1 + sst/100 + serviceCharge/100), equals the subtotal with no truthy rate, and equals the receipt page's `calculateTaxes(calculateSubtotal(items)).total` on every receipt |
| GroupTotals.TotalBounds | src/GroupPage.js:294-308 | with non-negative prices, quantities and rates, 0 ≤ subtotal ≤ total |
| MemberShares.CalculateUserTotal | src/ReceiptPage.js:578-598 | a non-positive pre-tax amount is returned unchanged; with no truthy rate the result is the pre-tax amount |
| MemberShares.UserTotalCompounds | src/ReceiptPage.js:588-595 | for a positive pre-tax amount b the result is b × (1 + sst/100) × (1 + serviceCharge/100): the service charge applies on top of the SST |
| MemberShares.CompoundVersusTaxes | src/ReceiptPage.js:588-595 | applying both rates in turn to any amount gives `calculateTaxes`' total on it plus amount × sst × serviceCharge / 10000 |
| MemberShares.UserTotalVersusTaxes | src/ReceiptPage.js:588-595 | for a non-negative pre-tax amount b (0 for a member on no line), the per-member total exceeds `calculateTaxes` on b by exactly b × sst × serviceCharge / 10000; a negative amount is returned unchanged and is not covered |
| MemberShares.UserTotalAgreesWithTaxesIff | src/ReceiptPage.js:588-595 | for a non-negative pre-tax amount, the per-member total equals `calculateTaxes` on the same amount if and only if the amount is 0 or at least one rate is falsy |
| MemberShares.Mine | src/ReceiptPage.js:601-603 | the `filter` step: only lines of the receipt that include the member, and every such line |
| MemberShares.GetUserItems | src/ReceiptPage.js:600-607 | each row's line is on the receipt and includes the member, every such line has a row, and each row's cost times the number of consumers is the line amount (no division by zero) |
| MemberShares.GetUserItemsCons | src/ReceiptPage.js:600-607 | row by row, for all inputs: no lines give no rows; a shared line gives exactly one row, with its per-person cost, in front of the rows of the lines after it; any other line gives none. So the number of rows and their order follow the receipt |
| MemberShares.CostTimesConsumers | src/ReceiptPage.js:582 | what a line charges a consumer (`Share`, the per-person cost of lines 582 and 605) times the number of consumers is the line amount |
| MemberShares.PreTaxMatchesUserItems | src/ReceiptPage.js:578-607 | the pre-tax amount `calculateUserTotal` accumulates equals the sum of the per-person costs `getUserItems` lists |
| MemberShares.UninvolvedMemberPaysNothing | src/ReceiptPage.js:578-607 | a member in no line has a pre-tax amount of 0, a total of 0 and no rows |
| Conservation.SharesOverCount | src/ReceiptPage.js:581-584 | what a line charges a list of members is the number of its consumers among them times the per-person cost |
| Conservation.ItemCharged | src/ReceiptPage.js:581-584 | a line whose consumers are distinct members is charged in full to the members; a line without consumers is charged to nobody |
| Conservation.SplitConserved | src/ReceiptPage.js:578-586 | with distinct member ids and well-assigned lines, the members' pre-tax amounts add up to the lines that have consumers, and to the subtotal when every line has consumers |
| Conservation.PreTaxNonNegative | src/ReceiptPage.js:580-585 | non-negative lines give every member a non-negative pre-tax amount |
| Conservation.UserTotalsScale | src/ReceiptPage.js:578-598 | on non-negative lines the members' totals add up to their pre-tax sum × (1 + sst/100) × (1 + serviceCharge/100) |
| Conservation.CompoundingOvercharges | src/ReceiptPage.js:588-595 | on a fully assigned receipt with non-negative lines, the members' totals add up to the receipt total plus subtotal × sst × serviceCharge / 10000 |
| Conservation.OverchargeExample | src/ReceiptPage.js:588-595 | a 20.00 line shared by two members at SST 6% and service charge 10%: each is shown 11.66, together 23.32, while the receipt totals 23.20 |
| Conservation.AdditiveUserTotal | src/ReceiptPage.js:818-834 | the per-member total with both rates taken from the pre-tax amount, as `calculateTaxes` does |
| Conservation.AdditiveSharesCoverReceipt | src/ReceiptPage.js:818-834 | with the additive per-member total, the members of a fully assigned receipt pay exactly the receipt total |
| Selection.Toggle | src/ReceiptPage.js:349-354 | the clicked id is selected afterwards exactly when it was not before; every other id keeps its state; a new id is appended at the end; in a duplicate-free list a selected id is cut out at its position and the others keep their order; duplicate-freedom is preserved |
| Selection.FilterDropsOne | src/ReceiptPage.js:351 | in a duplicate-free list, the `filter` removes exactly the entry at the id's position and nothing else |
| Selection.ToggleTwiceSameMembers | src/ReceiptPage.js:349-354 | toggling the same id twice restores which ids are selected |
| Selection.ToggleTwice | src/ReceiptPage.js:349-354 | in a duplicate-free selection (which toggling preserves), toggling twice restores the list itself if and only if the id was not selected or was the last selected |
| Selection.AddThenRemove | src/ReceiptPage.js:349-354 | selecting an unselected id and clicking it again restores the list |
| Selection.RemoveLastThenAdd | src/ReceiptPage.js:349-354 | in a duplicate-free selection (which toggling preserves), clicking the last selected id twice restores the list |
| Names.Find | src/ReceiptPage.js:876 | `members.find`: none exactly when no member has the id, otherwise the first member with the id |
| Names.NameOf | src/ReceiptPage.js:876-877 | `user ? user.name : ''`: the name of the first member with the id, and "" for an id no member has; a non-empty result is the name of a member with that id |
| Names.DisplayNames | src/ReceiptPage.js:874-879 | the mapped names with the empty ones dropped; none is empty |
| Names.DisplayNamesEmpty | src/ReceiptPage.js:874-879 | no ids show no names |
| Names.DisplayNamesSnoc | src/ReceiptPage.js:874-879 | for every list, one more id adds its member's name at the end when it has one and nothing otherwise; with `DisplayNamesEmpty` this fixes the names shown for any mix of known and unknown ids: the known names, in `userIds` order |
| Names.GetUserNames | src/ReceiptPage.js:872-881 | the unassigned label for a missing or empty list; otherwise the shown names joined by ", ", which is empty exactly when no id names a member with a non-empty name |
| Names.EmptyNamesIff | src/ReceiptPage.js:874-879 | nothing is displayed exactly when every id maps to an empty name |
| Names.JoinEmptyIff | src/ReceiptPage.js:880 | joining non-empty names is empty exactly when there are none |
| Names.AllUnknownIsEmpty | src/ReceiptPage.js:872-881 | a non-empty list of ids that name no member renders as "", not as the unassigned label |
| Names.AllKnownInOrder | src/ReceiptPage.js:874-879 | when every id names a member with a non-empty name, the names shown are those members' names in `userIds` order |
| Names.AppendName | src/ReceiptPage.js:872-881 | for every non-empty list, one more id appends ", " and its member's name (just the name when nothing was shown yet), or changes nothing when the id names no member |
| Names.MixedIdsExample | src/ReceiptPage.js:872-881 | ids "b", "x", "a" with members a = Ann and b = Bob (no member "x", as after `deleteMember`) render as "Bob" + ", " + "Ann" |
| TaxForm.Prefill | src/ReceiptPage.js:1010-1011 | `rate \|\| ''`: the field is truthy exactly when the stored rate is, and then holds that rate |
| TaxForm.Submit | src/ReceiptPage.js:682-685 | a falsy field becomes `null`; a prefilled number is kept; typed text is converted by `Number` |
| TaxForm.UpdateReceiptTaxes | src/firebaseUtils.js:323-328 | both submitted rates are stored as given; nothing else on the receipt changes |
| TaxForm.PrefillSubmitRoundTrip | src/ReceiptPage.js:682-685 | submitting an untouched prefilled field returns the stored rate, with a falsy one turned into `null`; the effective percentage is unchanged |
| TaxForm.SubmitPrefillIdempotent | src/ReceiptPage.js:682-685 | prefilling from a submitted value and submitting again gives the same normalised value |
| TaxForm.UntouchedDialogKeepsTotal | src/ReceiptPage.js:682-685 | saving the dialog without editing it leaves the receipt total unchanged |
| TaxForm.TypedZeroAddsNothing | src/ReceiptPage.js:682-685 | typing "0" stores 0 rather than `null`, and that rate still adds nothing |
| ItemEdits.SetUserIds | src/firebaseUtils.js:170-178 | a non-empty list replaces the consumers; an empty or missing one deletes the field; every other field is kept |
| ItemEdits.UpdateItemUsers | src/firebaseUtils.js:165-185 | same length; only the item at the index changes, and it changes as `SetUserIds` says |
| ItemEdits.UpdateItemUsersKeepsSubtotal | src/firebaseUtils.js:165-185 | reassigning consumers never changes the subtotal |
| ItemEdits.UpdateItemUsersIdempotent | src/firebaseUtils.js:165-185 | writing the same consumers twice is writing them once |
| ItemEdits.Coerce | src/firebaseUtils.js:202-203 | `Number(x) \|\| 0`: an unparsable value becomes 0, a number stays as it is |
| ItemEdits.TextOrNull | src/firebaseUtils.js:207 | `s \|\| null` on a string: kept exactly when it is non-empty |
| ItemEdits.NewItem | src/firebaseUtils.js:200-208 | the new line's name defaults to "", price and quantity are coerced, `totalAmount` is price × quantity, no consumers, `createdAt` and `updatedAt` are the two clock readings, and an empty `updatedBy` is stored as `null` |
| ItemEdits.AddItemToReceipt | src/firebaseUtils.js:196-221 | a missing list counts as empty; exactly one line is appended at the end and the existing lines are untouched |
| ItemEdits.AddItemSubtotal | src/firebaseUtils.js:196-221 | adding a line raises the subtotal by exactly its coerced price × quantity |
| ItemEdits.PreTaxAppend | src/ReceiptPage.js:580-585 | appending a line adds its share to a member's pre-tax amount |
| ItemEdits.AddItemChargesNobody | src/firebaseUtils.js:196-221 | a new line has no consumers, so no member's pre-tax amount changes |
| ItemEdits.SpliceStart | src/firebaseUtils.js:289 | where `splice(start, 1)` starts: a negative index counts back from the end (clamped at 0), an index past the end is the end |
| ItemEdits.DeleteReceiptItem | src/firebaseUtils.js:284-294 | when the start is in range, exactly that line is removed and the rest keep their order; when the clamped start is the end of the list (an index at or past the end, or any index on an empty list) the list is unchanged |
| ItemEdits.DeleteItemSubtotal | src/firebaseUtils.js:284-294 | deleting a line lowers the subtotal by exactly that line's amount |
| ItemEdits.AddThenDelete | src/firebaseUtils.js:196-221 | deleting the line just added, by its index or as index -1, restores the list |
| ItemEdits.Merge | src/firebaseUtils.js:342-347 | fields present in the edit overwrite the line's; the others survive; the update time is set and `updatedBy` is always written |
| ItemEdits.UpdateReceiptItem | src/firebaseUtils.js:336-351 | nothing is written for a missing receipt; otherwise same length, the line at the index is merged and every other line is untouched |
| ItemEdits.MergeIdempotent | src/firebaseUtils.js:342-347 | applying the same edit twice at the same time is applying it once |
| ItemEdits.UpdateItemSubtotal | src/firebaseUtils.js:336-351 | an edit moves the subtotal by the difference between the new and old line amounts |
| ItemEdits.StaleTotalAmount | src/firebaseUtils.js:342-347 | an edit that changes only the price of a freshly added line with non-zero quantity leaves its stored `totalAmount` different from price × quantity |
| GroupEdits.ArrayUnion | src/firebaseUtils.js:45 | Firestore `arrayUnion`: the value is present afterwards, nothing else is added, it is appended only when absent, and duplicate-freedom is preserved |
| GroupEdits.ArrayUnionIdempotent | src/firebaseUtils.js:45 | a second union of the same value changes nothing |
| GroupEdits.RegisterReceipt | src/firebaseUtils.js:44-46 | the new receipt id joins the group's receipts by union: a fresh id is appended at the end, an id already present leaves the list as it is; the list stays duplicate-free and nothing else changes |
| GroupEdits.AddMemberToGroup | src/firebaseUtils.js:229-242 | the new member record is present afterwards and nothing else is added; under a fresh id it is appended at the end |
| GroupEdits.AddFreshMemberKeepsIdsUnique | src/firebaseUtils.js:229-242 | adding a member under a fresh id keeps member ids unique |
| GroupEdits.UpdateMember | src/firebaseUtils.js:250-261 | same length and ids in the same order; only the member with the id gets the new name; every other member is untouched |
| GroupEdits.UpdateMemberIdempotent | src/firebaseUtils.js:250-261 | renaming twice with the same name is renaming once |
| GroupEdits.DeleteMember | src/firebaseUtils.js:268-277 | every member with the id is removed and every other member is kept |
| GroupEdits.DeleteMemberIdempotent | src/firebaseUtils.js:268-277 | deleting twice is deleting once |
| GroupEdits.DeleteMemberKeepsOrder | src/firebaseUtils.js:268-277 | deletion distributes over concatenation, so the survivors keep their relative order |
| GroupEdits.DeleteAddedMember | src/firebaseUtils.js:229-277 | deleting a member just added under a fresh id restores the list |
| GroupEdits.DeleteReceipt | src/firebaseUtils.js:301-314 | the id is gone from the group's receipts; every other id keeps its membership; duplicate-freedom is preserved |
| GroupEdits.DeleteReceiptIdempotent | src/firebaseUtils.js:301-314 | deleting twice is deleting once |
| GroupEdits.DeleteReceiptKeepsOrder | src/firebaseUtils.js:301-314 | deletion distributes over concatenation, so the other ids keep their relative order |
| GroupEdits.DeleteRegisteredReceipt | src/firebaseUtils.js:33-49 | deleting a freshly registered receipt restores the group's receipt list |
| ReceiptEdits.CreateReceipt | src/firebaseUtils.js:33-49 | a new receipt has the given ids, name and payer, an empty item list, no rate fields (`null`, not just a falsy value) and the creation time |
| ReceiptEdits.NewReceiptIsEmpty | src/firebaseUtils.js:33-49 | a new receipt totals 0 on both pages and charges every member 0 |
| ReceiptEdits.OrNull | src/firebaseUtils.js:375-376 | `value \|\| null`: a rate is kept exactly when it is truthy; the effective percentage is unchanged |
| ReceiptEdits.UpdateReceiptSettings | src/firebaseUtils.js:371-379 | name and payer are stored as given, falsy rates as `null`, the update time is set, and the items and the receipt's identity are untouched |
| ReceiptEdits.UpdateReceiptSettingsIdempotent | src/firebaseUtils.js:371-379 | saving the same settings twice is saving them once |
| ReceiptEdits.SettingsTotalsAsGiven | src/firebaseUtils.js:375-376 | storing falsy rates as `null` gives the same total as storing the rates as given |
| Navbar.Split | src/components/Navbar.js:7 | `split('/')` yields at least one part and no part contains the separator |
| Navbar.SplitJoin | src/components/Navbar.js:7 | joining the parts with the separator gives back the path |
| Navbar.JoinSplit | src/components/Navbar.js:7 | splitting a join of separator-free parts gives back the parts |
| Navbar.Segments | src/components/Navbar.js:7 | segments are non-empty and contain no '/' |
| Navbar.SegmentsOfJoin | src/components/Navbar.js:7 | the segments of any list of non-empty, slash-free parts joined by '/' are those parts (none for the empty list) |
| Navbar.LeadingSlash | src/components/Navbar.js:7 | a leading slash does not change the segments |
| Navbar.TrailingSlash | src/components/Navbar.js:7 | a trailing slash does not change the segments |
| Navbar.DoubledSlash | src/components/Navbar.js:7 | a doubled slash counts as one |
| Navbar.PathBreadcrumb | src/components/Navbar.js:7-19 | the label shown for a path is one of Home, Group and Receipt; Group exactly when its segments are `group/<id>`, Receipt exactly when they are `group/<id>/receipt/<id>` |
| Navbar.Breadcrumb | src/components/Navbar.js:9-19 | the label is one of Home, Group and Receipt; it is Group exactly for `group/<id>` and Receipt exactly for `group/<id>/receipt/<id>` |
| Navbar.GroupRoute | src/components/Navbar.js:14 | `/group/<groupId>` is labelled Group |
| Navbar.ReceiptRoute | src/components/Navbar.js:15 | `/group/<groupId>/receipt/<receiptId>` is labelled Receipt |
| Navbar.RootIsHome | src/components/Navbar.js:10 | `/` has no segments and is labelled Home |

## Left out

- Firestore reads and writes (`getDoc`, `setDoc`, `updateDoc`, `deleteDoc`, snapshots) are I/O. Each mutator is modelled as its in-memory transform: the list read is a parameter, the list written is the result.
- The read-modify-write races between concurrent mutators are concurrency behaviour.
- `uuidv4()` ids and `new Date().toISOString()` timestamps are parameters.
- JavaScript's `Number` on typed text is a parameter (`TaxForm.Submit`); the item forms' parsing is `Option<real>` (`None` when unparsable).
- IEEE floating point, rounding and NaN are not modelled: money is `real`.
- React rendering, styles, modals and `formatDate` are presentation. The `toFixed(2)` calls are display rounding.
- `UpdateItemUsers` and `UpdateReceiptItem` require an index inside the list. An index past the end would make JavaScript grow a sparse array, which has no counterpart in a sequence.
- The edit form also sends a `timestamp` key (src/ReceiptPage.js:1044), which the spread in `updateReceiptItem` writes into the stored line. `Merge` models only the item fields.
- `UpdateItemUsers`, `DeleteReceiptItem`, `UpdateReceiptItem`, `AddItemToReceipt`, `UpdateMember`, `DeleteMember` and `DeleteReceipt` take the stored list as a parameter. The source reads it from the document and throws a `TypeError` when the field or the document is missing: `[...receiptData.items]` (src/firebaseUtils.js:169, 288, 341), `receiptDoc.data().items` on a missing receipt (212), and `groupData.members` or `groupData.receipts` (254, 272, 306). That error path is not modelled. `AddItemToReceipt` does model the `items \|\| []` of an existing receipt without items.
- `updateMember` spreads any object; its only caller passes `{ name }`, so `UpdateMember` models a rename.
- `joinGroup` adds a record `{ name }`, with no id and no timestamp, to `members` by array union (src/firebaseUtils.js:56-60). A `Member` always has an id, so it is not modelled. The union itself is `GroupEdits.ArrayUnion`.
- `createGroup`, `deleteGroup` and the getters are plain document I/O with no list logic.
- The second half of `deleteReceipt` (deleting the receipt document) is I/O.
- The storage client (`supabaseConfig.js`), the attachments tab, routing, authentication, cookies and recent-group storage are not part of this model.
- Per-item payers, "mark paid", debts between members and a paid percentage have no code. `paidBy` is stored but never read by any total, so it is carried as an opaque field.
- ItemEdits.StaleTotalAmount: the stored `totalAmount` of a line is written once, at creation, and never updated by later edits. No total reads it, so the model records the staleness and does not correct it.

## Findings

| source | as written | input that shows it | evidently intended | confidence | as-written member | corrected member |
|---|---|---|---|---|---|---|
| src/ReceiptPage.js:588-595 | the per-member total applies the service charge to the SST-inclusive running total, so the rates compound, while both receipt totals (src/ReceiptPage.js:818-834, src/GroupPage.js:292-309) take both charges from the subtotal | one line, price 20, quantity 1, shared by members A and B; SST 6; service charge 10: each member is shown 11.66, together 23.32, while the receipt totals 23.20 | the members' totals add up to the receipt total, with both rates taken from the member's pre-tax amount as `calculateTaxes` does | medium, not executed | Conservation.CompoundingOvercharges | Conservation.AdditiveSharesCoverReceipt |

`Conservation.OverchargeExample` works the example above through the as-written
definitions. `Conservation.AdditiveUserTotal` is the corrected per-member total
that `Conservation.AdditiveSharesCoverReceipt` is proved about.

=== FILE: conservation.dfy ===
/** Conservation of the per-member split: what the user summary charges the
    members of a group adds up to the lines that have consumers. */
module Conservation {
  import opened Wrappers
  import opened Seqs
  import opened Entities
  import opened ReceiptTotals
  import opened MemberShares

  /** What one line charges the members `ids` between them. */
  function SharesOver(item: Item, ids: seq<Id>): real
  {
    if |ids| == 0 then 0.0 else Share(item, ids[0]) + SharesOver(item, ids[1..])
  }

  /** How many of `ids` consume the line. */
  function CountIncluded(item: Item, ids: seq<Id>): nat
  {
    if |ids| == 0 then 0 else (if Includes(item, ids[0]) then 1 else 0) + CountIncluded(item, ids[1..])
  }

  /** The pre-tax amounts of the members `ids`, added up. */
  function MembersTotal(items: seq<Item>, ids: seq<Id>): real
  {
    if |ids| == 0 then 0.0 else PreTaxTotal(items, ids[0]) + MembersTotal(items, ids[1..])
  }

  /** The same amount summed line by line instead of member by member. */
  function ItemsTotal(items: seq<Item>, ids: seq<Id>): real
  {
    if |items| == 0 then 0.0 else SharesOver(items[0], ids) + ItemsTotal(items[1..], ids)
  }

  /** The consumers of a line are distinct and all among `ids`. */
  predicate WellAssigned(item: Item, ids: seq<Id>) {
    item.userIds.Some? ==>
      NoDup(item.userIds.value) && forall k :: 0 <= k < |item.userIds.value| ==> item.userIds.value[k] in ids
  }

  /** Every consumer of a line pays the same per-person cost. */
  lemma {:induction false} SharesOverCount(item: Item, ids: seq<Id>)
    requires Assigned(item)
    ensures SharesOver(item, ids) == CountIncluded(item, ids) as real * PerPersonCost(item)
  {
    if |ids| > 0 {
      SharesOverCount(item, ids[1..]);
    }
  }

  /** Counting the consumers among distinct ids counts the ids both lists share. */
  lemma {:induction false} CountIncludedCard(item: Item, ids: seq<Id>)
    requires item.userIds.Some?
    requires NoDup(ids)
    ensures CountIncluded(item, ids) == |Elems(ids) * Elems(item.userIds.value)|
  {
    var u := Elems(item.userIds.value);
    if |ids| == 0 {
      assert Elems(ids) == {};
    } else {
      var t := ids[1..];
      NoDupTail(ids);
      CountIncludedCard(item, t);
      var x := Elems(t) * u;
      if Includes(item, ids[0]) {
        assert Elems(ids) * u == {ids[0]} + x;
        assert ids[0] !in x;
        assert |{ids[0]} + x| == |x| + 1;
      } else {
        assert Elems(ids) * u == x;
      }
    }
  }

  /** A line whose consumers are distinct members is charged in full to the
      members, and a line without consumers is charged to nobody. */
  lemma ItemCharged(item: Item, ids: seq<Id>)
    requires NoDup(ids)
    requires WellAssigned(item, ids)
    ensures SharesOver(item, ids) == if Assigned(item) then LineTotal(item) else 0.0
  {
    if Assigned(item) {
      var u := item.userIds.value;
      SharesOverCount(item, ids);
      CountIncludedCard(item, ids);
      assert Elems(ids) * Elems(u) == Elems(u);
      NoDupCard(u);
      var n := |u| as real;
      assert CountIncluded(item, ids) as real == n;
      assert n * (LineTotal(item) / n) == LineTotal(item);
    } else {
      NobodyCharged(item, ids);
    }
  }

  /** A line without consumers charges nothing. */
  lemma {:induction false} NobodyCharged(item: Item, ids: seq<Id>)
    requires !Assigned(item)
    ensures SharesOver(item, ids) == 0.0
  {
    if |ids| > 0 {
      NobodyCharged(item, ids[1..]);
    }
  }

  /** Summing member by member or line by line gives the same amount. */
  lemma {:induction false} SwapSums(items: seq<Item>, ids: seq<Id>)
    ensures MembersTotal(items, ids) == ItemsTotal(items, ids)
    decreases |ids|
  {
    if |ids| > 0 {
      SwapSums(items, ids[1..]);
      PeelFirstMember(items, ids);
    } else {
      EmptyItemsTotal(items, ids);
    }
  }

  /** Line by line, the first member's shares come out as their pre-tax amount. */
  lemma {:induction false} PeelFirstMember(items: seq<Item>, ids: seq<Id>)
    requires |ids| > 0
    ensures ItemsTotal(items, ids) == PreTaxTotal(items, ids[0]) + ItemsTotal(items, ids[1..])
  {
    if |items| > 0 {
      PeelFirstMember(items[1..], ids);
    }
  }

  /** No members, nothing charged. */
  lemma {:induction false} EmptyItemsTotal(items: seq<Item>, ids: seq<Id>)
    requires |ids| == 0
    ensures ItemsTotal(items, ids) == 0.0
  {
    if |items| > 0 {
      EmptyItemsTotal(items[1..], ids);
    }
  }

  /** Line by line, each well-assigned line contributes its full amount when it has consumers. */
  lemma {:induction false} ItemsTotalAssigned(items: seq<Item>, ids: seq<Id>)
    requires NoDup(ids)
    requires forall i :: 0 <= i < |items| ==> WellAssigned(items[i], ids)
    ensures ItemsTotal(items, ids) == SumLines(Filter(items, Assigned))
  {
    if |items| > 0 {
      ItemsTotalAssigned(items[1..], ids);
      ItemCharged(items[0], ids);
      if Assigned(items[0]) {
        assert Filter(items, Assigned) == [items[0]] + Filter(items[1..], Assigned);
        SumLinesCons(items[0], Filter(items[1..], Assigned));
      } else {
        assert Filter(items, Assigned) == Filter(items[1..], Assigned);
      }
    }
  }

  /** Conservation of the split. When member ids are distinct and every line's
      consumers are distinct members, the members' pre-tax amounts add up to
      the lines that have consumers. Lines without consumers are charged to
      nobody; when every line has consumers the members cover the subtotal. */
  lemma SplitConserved(items: seq<Item>, members: seq<Member>)
    requires NoDup(IdsOf(members))
    requires forall i :: 0 <= i < |items| ==> WellAssigned(items[i], IdsOf(members))
    ensures MembersTotal(items, IdsOf(members)) == SumLines(Filter(items, Assigned))
    ensures (forall i :: 0 <= i < |items| ==> Assigned(items[i])) ==>
      MembersTotal(items, IdsOf(members)) == CalculateSubtotal(Some(items))
  {
    var ids := IdsOf(members);
    SwapSums(items, ids);
    ItemsTotalAssigned(items, ids);
    if forall i :: 0 <= i < |items| ==> Assigned(items[i]) {
      FilterAllKept(items, Assigned);
    }
  }

  /** With non-negative prices and quantities every member's pre-tax amount is non-negative. */
  lemma {:induction false} PreTaxNonNegative(items: seq<Item>, id: Id)
    requires forall i :: 0 <= i < |items| ==> NonNegative(items[i])
    ensures PreTaxTotal(items, id) >= 0.0
  {
    if |items| > 0 {
      PreTaxNonNegative(items[1..], id);
      var it := items[0];
      assert it.price * it.quantity >= 0.0;
      if Includes(it, id) {
        assert LineTotal(it) / (|it.userIds.value| as real) >= 0.0;
      }
    }
  }

  /** A list of amounts, added up from the front. */
  function Sum(xs: seq<real>): real
  {
    if |xs| == 0 then 0.0 else xs[0] + Sum(xs[1..])
  }

  /** The pre-tax amounts of the members `ids`, in order. */
  function PreTaxes(items: seq<Item>, ids: seq<Id>): (r: seq<real>)
    ensures |r| == |ids|
  {
    seq(|ids|, i requires 0 <= i < |ids| => PreTaxTotal(items, ids[i]))
  }

  /** The compounding per-member totals of the members `ids`, in order. */
  function UserTotals(items: seq<Item>, receipt: Receipt, ids: seq<Id>): (r: seq<real>)
    ensures |r| == |ids|
  {
    seq(|ids|, i requires 0 <= i < |ids| => CalculateUserTotal(items, receipt, ids[i]))
  }

  /** The compounding per-member totals of the members `ids`, added up. */
  function UserTotalsSum(items: seq<Item>, receipt: Receipt, ids: seq<Id>): real
  {
    Sum(UserTotals(items, receipt, ids))
  }

  /** The per-member total with the rates applied additively, as `calculateTaxes`
      applies them to the whole receipt. */
  function AdditiveUserTotal(items: seq<Item>, receipt: Receipt, id: Id): (r: real)
    ensures r == AddRates(PreTaxTotal(items, id), Rate(receipt.sst), Rate(receipt.serviceCharge))
    ensures !Truthy(receipt.sst) && !Truthy(receipt.serviceCharge) ==> r == PreTaxTotal(items, id)
  {
    CalculateTaxes(PreTaxTotal(items, id), receipt).total
  }

  /** The additive per-member totals of the members `ids`, added up. */
  function AdditiveTotalsSum(items: seq<Item>, receipt: Receipt, ids: seq<Id>): real
  {
    if |ids| == 0 then 0.0
    else AdditiveUserTotal(items, receipt, ids[0]) + AdditiveTotalsSum(items, receipt, ids[1..])
  }

  /** The additive formula: both percentages of `x` added to `x`. */
  function AddRates(x: real, s: real, c: real): real
  {
    x + x * s / 100.0 + x * c / 100.0
  }

  /** The additive per-member totals add up to the rates applied to the members' pre-tax sum. */
  lemma {:induction false} AdditiveTotalsLinear(items: seq<Item>, receipt: Receipt, ids: seq<Id>, s: real, c: real)
    requires s == Rate(receipt.sst) && c == Rate(receipt.serviceCharge)
    ensures AdditiveTotalsSum(items, receipt, ids) == AddRates(MembersTotal(items, ids), s, c)
  {
    if |ids| > 0 {
      AdditiveTotalsLinear(items, receipt, ids[1..], s, c);
      AffineStep(AdditiveTotalsSum(items, receipt, ids), MembersTotal(items, ids),
        AdditiveUserTotal(items, receipt, ids[0]), PreTaxTotal(items, ids[0]),
        AdditiveTotalsSum(items, receipt, ids[1..]), MembersTotal(items, ids[1..]), s, c);
    } else {
      AffineZero(AdditiveTotalsSum(items, receipt, ids), MembersTotal(items, ids), s, c);
    }
  }

  /** The receipt page's total in the additive form. */
  lemma ReceiptPageTotalForm(receipt: Receipt, s: real, c: real)
    requires s == Rate(receipt.sst) && c == Rate(receipt.serviceCharge)
    ensures ReceiptPageTotal(receipt) == AddRates(CalculateSubtotal(receipt.items), s, c)
  {
  }

  /** With the rates applied additively, the members of a fully assigned receipt
      pay exactly the receipt's total. */
  lemma AdditiveSharesCoverReceipt(receipt: Receipt, members: seq<Member>)
    requires receipt.items.Some?
    requires NoDup(IdsOf(members))
    requires forall i :: 0 <= i < |receipt.items.value| ==>
      WellAssigned(receipt.items.value[i], IdsOf(members)) && Assigned(receipt.items.value[i])
    ensures AdditiveTotalsSum(receipt.items.value, receipt, IdsOf(members)) == ReceiptPageTotal(receipt)
  {
    var s := Rate(receipt.sst);
    var c := Rate(receipt.serviceCharge);
    SplitConserved(receipt.items.value, members);
    AdditiveTotalsLinear(receipt.items.value, receipt, IdsOf(members), s, c);
    ReceiptPageTotalForm(receipt, s, c);
  }

  /** The compounding per-member total is the member's pre-tax amount scaled by
      `m = (1 + sst/100) * (1 + serviceCharge/100)` (a non-positive amount is
      only ever 0 here, since the lines are non-negative). */
  lemma UserTotalScales(items: seq<Item>, receipt: Receipt, id: Id, m: real)
    requires forall i :: 0 <= i < |items| ==> NonNegative(items[i])
    requires m == (1.0 + Rate(receipt.sst) / 100.0) * (1.0 + Rate(receipt.serviceCharge) / 100.0)
    ensures CalculateUserTotal(items, receipt, id) == PreTaxTotal(items, id) * m
  {
    PreTaxNonNegative(items, id);
    var b := PreTaxTotal(items, id);
    if b > 0.0 {
      UserTotalCompounds(items, receipt, id);
      assert b * (1.0 + Rate(receipt.sst) / 100.0) * (1.0 + Rate(receipt.serviceCharge) / 100.0) == b * m;
    }
  }

  /** The compounding per-member totals add up to the members' pre-tax sum scaled
      by the same `m`. */
  lemma UserTotalsScale(items: seq<Item>, receipt: Receipt, ids: seq<Id>, m: real)
    requires forall i :: 0 <= i < |items| ==> NonNegative(items[i])
    requires m == (1.0 + Rate(receipt.sst) / 100.0) * (1.0 + Rate(receipt.serviceCharge) / 100.0)
    ensures UserTotalsSum(items, receipt, ids) == MembersTotal(items, ids) * m
  {
    ScaledSums(items, receipt, ids, m);
    MembersTotalIsSum(items, ids);
  }

  /** The list of compounding totals sums to the list of pre-tax amounts' sum times `m`. */
  lemma ScaledSums(items: seq<Item>, receipt: Receipt, ids: seq<Id>, m: real)
    requires forall i :: 0 <= i < |items| ==> NonNegative(items[i])
    requires m == (1.0 + Rate(receipt.sst) / 100.0) * (1.0 + Rate(receipt.serviceCharge) / 100.0)
    ensures Sum(UserTotals(items, receipt, ids)) == Sum(PreTaxes(items, ids)) * m
  {
    EachUserTotalScales(items, receipt, ids, m);
    SumScaled(UserTotals(items, receipt, ids), PreTaxes(items, ids), m);
  }

  /** Every member's compounding total is their pre-tax amount scaled by `m`. */
  lemma EachUserTotalScales(items: seq<Item>, receipt: Receipt, ids: seq<Id>, m: real)
    requires forall i :: 0 <= i < |items| ==> NonNegative(items[i])
    requires m == (1.0 + Rate(receipt.sst) / 100.0) * (1.0 + Rate(receipt.serviceCharge) / 100.0)
    ensures |UserTotals(items, receipt, ids)| == |PreTaxes(items, ids)|
    ensures forall i :: 0 <= i < |ids| ==> UserTotals(items, receipt, ids)[i] == PreTaxes(items, ids)[i] * m
  {
    var us := UserTotals(items, receipt, ids);
    var gs := PreTaxes(items, ids);
    forall i | 0 <= i < |ids| ensures us[i] == gs[i] * m {
      UserTotalScales(items, receipt, ids[i], m);
    }
  }

  /** Scaling every entry scales the sum. */
  lemma {:induction false} SumScaled(xs: seq<real>, ys: seq<real>, m: real)
    requires |xs| == |ys|
    requires forall i :: 0 <= i < |xs| ==> xs[i] == ys[i] * m
    ensures Sum(xs) == Sum(ys) * m
  {
    if |xs| > 0 {
      SumScaled(xs[1..], ys[1..], m);
      ScaleStep(Sum(xs), Sum(ys), xs[0], ys[0], Sum(xs[1..]), Sum(ys[1..]), m);
    }
  }

  /** `MembersTotal` is the sum of the members' pre-tax amounts. */
  lemma {:induction false} MembersTotalIsSum(items: seq<Item>, ids: seq<Id>)
    ensures MembersTotal(items, ids) == Sum(PreTaxes(items, ids))
  {
    if |ids| > 0 {
      MembersTotalIsSum(items, ids[1..]);
      assert PreTaxes(items, ids)[1..] == PreTaxes(items, ids[1..]);
    }
  }

  /** One step of a scaled sum: `g0 * m + g1 * m == (g0 + g1) * m`. */
  lemma ScaleStep(u: real, g: real, u0: real, g0: real, u1: real, g1: real, m: real)
    requires u == u0 + u1 && g == g0 + g1
    requires u0 == g0 * m && u1 == g1 * m
    ensures u == g * m
  {
  }

  /** The empty sum has the additive form. */
  lemma AffineZero(u: real, g: real, s: real, c: real)
    requires u == 0.0 && g == 0.0
    ensures u == AddRates(g, s, c)
  {
  }

  /** One step of the sum: adding an amount of the additive form to a sum of that
      form keeps the form. */
  lemma AffineStep(u: real, g: real, u0: real, g0: real, u1: real, g1: real, s: real, c: real)
    requires u == u0 + u1 && g == g0 + g1
    requires u0 == AddRates(g0, s, c)
    requires u1 == AddRates(g1, s, c)
    ensures u == AddRates(g, s, c)
  {
    assert (g0 + g1) * s == g0 * s + g1 * s;
    assert (g0 + g1) * c == g0 * c + g1 * c;
  }

  /** As written, the user summary overcharges: on a fully assigned receipt with
      non-negative lines the members' compounding totals add up to the receipt
      total plus `subtotal * sst * serviceCharge / 10000`. */
  lemma CompoundingOvercharges(receipt: Receipt, members: seq<Member>)
    requires receipt.items.Some?
    requires NoDup(IdsOf(members))
    requires forall i :: 0 <= i < |receipt.items.value| ==>
      && WellAssigned(receipt.items.value[i], IdsOf(members))
      && Assigned(receipt.items.value[i])
      && NonNegative(receipt.items.value[i])
    ensures UserTotalsSum(receipt.items.value, receipt, IdsOf(members))
      == ReceiptPageTotal(receipt)
        + CalculateSubtotal(receipt.items) * (Rate(receipt.sst) * Rate(receipt.serviceCharge) / 10000.0)
  {
    SplitConserved(receipt.items.value, members);
    OverchargeFromSums(receipt, IdsOf(members));
  }

  /** `CompoundingOvercharges` once the members' pre-tax sum is known to be the subtotal. */
  lemma OverchargeFromSums(receipt: Receipt, ids: seq<Id>)
    requires receipt.items.Some?
    requires forall i :: 0 <= i < |receipt.items.value| ==> NonNegative(receipt.items.value[i])
    requires MembersTotal(receipt.items.value, ids) == CalculateSubtotal(receipt.items)
    ensures UserTotalsSum(receipt.items.value, receipt, ids)
      == ReceiptPageTotal(receipt)
        + CalculateSubtotal(receipt.items) * (Rate(receipt.sst) * Rate(receipt.serviceCharge) / 10000.0)
  {
    ScaledSubtotal(receipt, ids);
    ReceiptPageTotalForm(receipt, Rate(receipt.sst), Rate(receipt.serviceCharge));
    CompoundedVersusAdditive(CalculateSubtotal(receipt.items), Rate(receipt.sst), Rate(receipt.serviceCharge));
  }

  /** The members' compounding totals are the subtotal scaled by both rates compounded. */
  lemma ScaledSubtotal(receipt: Receipt, ids: seq<Id>)
    requires receipt.items.Some?
    requires forall i :: 0 <= i < |receipt.items.value| ==> NonNegative(receipt.items.value[i])
    requires MembersTotal(receipt.items.value, ids) == CalculateSubtotal(receipt.items)
    ensures UserTotalsSum(receipt.items.value, receipt, ids)
      == CalculateSubtotal(receipt.items) * ((1.0 + Rate(receipt.sst) / 100.0) * (1.0 + Rate(receipt.serviceCharge) / 100.0))
  {
    UserTotalsScale(receipt.items.value, receipt, ids,
      (1.0 + Rate(receipt.sst) / 100.0) * (1.0 + Rate(receipt.serviceCharge) / 100.0));
  }

  /** Compounding two percentages exceeds adding them by the product term. */
  lemma CompoundedVersusAdditive(sub: real, s: real, c: real)
    ensures sub * ((1.0 + s / 100.0) * (1.0 + c / 100.0)) == AddRates(sub, s, c) + sub * (s * c / 10000.0)
  {
    CompoundExpansion(sub, s, c);
    assert sub * ((1.0 + s / 100.0) * (1.0 + c / 100.0)) == sub * (1.0 + s / 100.0) * (1.0 + c / 100.0);
  }

  /** A lunch of 20.00 shared by members "A" and "B" under a 6% SST and a 10%
      service charge: each member is shown 11.66, so together they are charged
      23.32, while the receipt totals 23.20. */
  lemma OverchargeExample()
    ensures var lunch := Item("Lunch", 20.0, 1.0, Some(["A", "B"]), None, None, None, None);
      var receipt := Receipt("r", "g", "Lunch", None, Some([lunch]), Some(6.0), Some(10.0), "", None);
      && CalculateUserTotal([lunch], receipt, "A") == 11.66
      && CalculateUserTotal([lunch], receipt, "B") == 11.66
      && UserTotalsSum([lunch], receipt, ["A", "B"]) == 23.32
      && ReceiptPageTotal(receipt) == 23.2
      && AdditiveTotalsSum([lunch], receipt, ["A", "B"]) == 23.2
  {
    var lunch := Item("Lunch", 20.0, 1.0, Some(["A", "B"]), None, None, None, None);
    var receipt := Receipt("r", "g", "Lunch", None, Some([lunch]), Some(6.0), Some(10.0), "", None);
    assert Includes(lunch, "A") && Includes(lunch, "B");
    assert PerPersonCost(lunch) == 10.0;
    assert PreTaxTotal([lunch], "A") == 10.0;
    assert PreTaxTotal([lunch], "B") == 10.0;
    var ids: seq<Id> := ["A", "B"];
    assert ids[1..] == ["B"];
    assert SumLines([lunch]) == 20.0;
    UserTotalUnfolds([lunch], receipt, "A");
    UserTotalUnfolds([lunch], receipt, "B");
    var us := UserTotals([lunch], receipt, ids);
    assert us == [11.66, 11.66];
    assert us[1..] == [11.66];
  }
}

=== FILE: entities.dfy ===
/** The documents the bill-splitter stores: groups, their members, receipts and
    the line items of a receipt. Fields a document may lack are `Option`s. */
module Entities {
  import opened Wrappers

  /** Member, receipt and group ids are opaque strings. */
  type Id = string

  /** One line of a receipt. `userIds` lists the members sharing the line; the
      field is absent when nobody is assigned, and may be present but empty after
      an edit that cleared every consumer. `totalAmount` is written only when the
      line is created and is never read by any total. */
  datatype Item = Item(
    name: string,
    price: real,
    quantity: real,
    userIds: Option<seq<Id>>,
    totalAmount: Option<real>,
    createdAt: Option<string>,
    updatedAt: Option<string>,
    updatedBy: Option<string>)

  /** A group member; `id` is what items refer to in `userIds`. */
  datatype Member = Member(id: Id, name: string, createdAt: Option<string>)

  /** A receipt document. `sst` and `serviceCharge` are percentages. */
  datatype Receipt = Receipt(
    id: Id,
    groupId: Id,
    name: string,
    paidBy: Option<Id>,
    items: Option<seq<Item>>,
    sst: Option<real>,
    serviceCharge: Option<real>,
    createdAt: string,
    updatedAt: Option<string>)

  /** A group document: its members in display order and the ids of its receipts. */
  datatype Group = Group(id: Id, name: string, members: seq<Member>, receipts: seq<Id>)

  /** JavaScript truthiness of a stored rate: `null` and `0` are both falsy. */
  predicate Truthy(rate: Option<real>) {
    rate.Some? && rate.value != 0.0
  }

  /** The percentage a rate contributes: its value when truthy, otherwise nothing. */
  function Rate(rate: Option<real>): (percent: real)
    ensures rate.Some? ==> percent == rate.value
    ensures rate.None? ==> percent == 0.0
    ensures percent != 0.0 <==> Truthy(rate)
  {
    if Truthy(rate) then rate.value else 0.0
  }

  /** The amount a line charges: `price * quantity`. */
  function LineTotal(item: Item): real {
    item.price * item.quantity
  }

  /** Prices and quantities are non-negative, as the item forms enforce. */
  predicate NonNegative(item: Item) {
    item.price >= 0.0 && item.quantity >= 0.0
  }

  /** The ids of a member list, in display order. */
  function IdsOf(members: seq<Member>): (ids: seq<Id>)
    ensures |ids| == |members|
  {
    seq(|members|, k requires 0 <= k < |members| => members[k].id)
  }
}

=== FILE: group_edits.dfy ===
/** The group-document transforms: adding a receipt id or a member by array
    union, renaming a member, and removing a member or a receipt id by filter. */
module GroupEdits {
  import opened Wrappers
  import opened Seqs
  import opened Entities

  /** Firestore `arrayUnion(x)`: append `x` unless an equal value is present. */
  function ArrayUnion<T(==, !new)>(s: seq<T>, x: T): (r: seq<T>)
    ensures x in r
    ensures forall y :: y in r <==> y in s || y == x
    ensures x in s ==> r == s
    ensures x !in s ==> r == s + [x]
    ensures NoDup(s) ==> NoDup(r)
  {
    if x in s then s
    else
      assert NoDup(s) ==> NoDup(s + [x]) by {
        if NoDup(s) {
          forall i, j | 0 <= i < j < |s + [x]| ensures (s + [x])[i] != (s + [x])[j] {
            assert (s + [x])[i] == s[i];
            if j < |s| {
              assert (s + [x])[j] == s[j];
            }
          }
        }
      }
      s + [x]
  }

  /** A second union of the same value changes nothing. */
  lemma ArrayUnionIdempotent<T(!new)>(s: seq<T>, x: T)
    ensures ArrayUnion(ArrayUnion(s, x), x) == ArrayUnion(s, x)
  {
  }

  /** The group side of `createReceipt`: the new receipt's id joins `receipts`. */
  function RegisterReceipt(group: Group, receiptId: Id): (g: Group)
    ensures g.id == group.id && g.name == group.name && g.members == group.members
    ensures receiptId in g.receipts
    ensures forall x :: x in g.receipts <==> x in group.receipts || x == receiptId
    ensures receiptId !in group.receipts ==> g.receipts == group.receipts + [receiptId]
    ensures receiptId in group.receipts ==> g.receipts == group.receipts
    ensures NoDup(group.receipts) ==> NoDup(g.receipts)
  {
    group.(receipts := ArrayUnion(group.receipts, receiptId))
  }

  /** `addMemberToGroup`: a member record with the fresh id, the given name and
      the creation time, added by union (a record equal in every field to one
      already present is not added again). */
  function AddMemberToGroup(members: seq<Member>, memberId: Id, name: string, now: string): (r: seq<Member>)
    ensures Member(memberId, name, Some(now)) in r
    ensures forall m :: m in r <==> m in members || m == Member(memberId, name, Some(now))
    ensures memberId !in IdsOf(members) ==> r == members + [Member(memberId, name, Some(now))]
  {
    var m := Member(memberId, name, Some(now));
    assert memberId !in IdsOf(members) ==> m !in members by {
      if m in members {
        var k :| 0 <= k < |members| && members[k] == m;
        assert IdsOf(members)[k] == memberId;
      }
    }
    ArrayUnion(members, m)
  }

  /** A fresh id keeps member ids unique. */
  lemma AddFreshMemberKeepsIdsUnique(members: seq<Member>, memberId: Id, name: string, now: string)
    requires NoDup(IdsOf(members)) && memberId !in IdsOf(members)
    ensures NoDup(IdsOf(AddMemberToGroup(members, memberId, name, now)))
  {
    var r := AddMemberToGroup(members, memberId, name, now);
    assert IdsOf(r) == IdsOf(members) + [memberId];
    assert memberId !in IdsOf(members);
    var ids := IdsOf(members) + [memberId];
    forall i, j | 0 <= i < j < |ids| ensures ids[i] != ids[j] {
      assert ids[i] == IdsOf(members)[i];
      if j < |members| {
        assert ids[j] == IdsOf(members)[j];
      }
    }
  }

  /** `updateMember`: `{ ...member, ...userData }` for the member with the id; the
      only caller's `userData` is `{ name }`. */
  function UpdateMember(members: seq<Member>, memberId: Id, name: string): (r: seq<Member>)
    ensures |r| == |members|
    ensures IdsOf(r) == IdsOf(members)
    ensures forall k :: 0 <= k < |r| && members[k].id == memberId ==>
      r[k].name == name && r[k].createdAt == members[k].createdAt
    ensures forall k :: 0 <= k < |r| && members[k].id != memberId ==> r[k] == members[k]
  {
    seq(|members|, k requires 0 <= k < |members| =>
      if members[k].id == memberId then members[k].(name := name) else members[k])
  }

  /** Renaming twice with the same name is renaming once. */
  lemma UpdateMemberIdempotent(members: seq<Member>, memberId: Id, name: string)
    ensures UpdateMember(UpdateMember(members, memberId, name), memberId, name)
      == UpdateMember(members, memberId, name)
  {
  }

  /** `deleteMember`: every member with the id is removed, the rest keep their order. */
  function DeleteMember(members: seq<Member>, memberId: Id): (r: seq<Member>)
    ensures |r| <= |members|
    ensures forall k :: 0 <= k < |r| ==> r[k].id != memberId && r[k] in members
    ensures forall k :: 0 <= k < |members| && members[k].id != memberId ==> members[k] in r
  {
    Filter(members, (m: Member) => m.id != memberId)
  }

  /** Deleting a member twice is deleting once. */
  lemma DeleteMemberIdempotent(members: seq<Member>, memberId: Id)
    ensures DeleteMember(DeleteMember(members, memberId), memberId) == DeleteMember(members, memberId)
  {
    FilterIdempotent(members, (m: Member) => m.id != memberId);
  }

  /** Deleting from a concatenation deletes from each part, so the survivors keep
      their relative order. */
  lemma DeleteMemberKeepsOrder(a: seq<Member>, b: seq<Member>, memberId: Id)
    ensures DeleteMember(a + b, memberId) == DeleteMember(a, memberId) + DeleteMember(b, memberId)
  {
    FilterAppend(a, b, (m: Member) => m.id != memberId);
  }

  /** Deleting a member just added under a fresh id restores the list. */
  lemma DeleteAddedMember(members: seq<Member>, memberId: Id, name: string, now: string)
    requires memberId !in IdsOf(members)
    ensures DeleteMember(AddMemberToGroup(members, memberId, name, now), memberId) == members
  {
    var m := Member(memberId, name, Some(now));
    forall k | 0 <= k < |members| ensures members[k].id != memberId {
      assert IdsOf(members)[k] == members[k].id;
    }
    FilterAppend(members, [m], (x: Member) => x.id != memberId);
    FilterAllKept(members, (x: Member) => x.id != memberId);
  }

  /** `deleteReceipt`, group side: every occurrence of the id leaves `receipts`. */
  function DeleteReceipt(receipts: seq<Id>, receiptId: Id): (r: seq<Id>)
    ensures receiptId !in r
    ensures forall x :: x != receiptId ==> (x in r <==> x in receipts)
    ensures NoDup(receipts) ==> NoDup(r)
  {
    FilterKeepsNoDup(receipts, x => x != receiptId);
    Filter(receipts, x => x != receiptId)
  }

  /** Deleting a receipt id twice is deleting once. */
  lemma DeleteReceiptIdempotent(receipts: seq<Id>, receiptId: Id)
    ensures DeleteReceipt(DeleteReceipt(receipts, receiptId), receiptId) == DeleteReceipt(receipts, receiptId)
  {
    FilterIdempotent(receipts, x => x != receiptId);
  }

  /** Deleting a receipt id from a concatenation deletes from each part. */
  lemma DeleteReceiptKeepsOrder(a: seq<Id>, b: seq<Id>, receiptId: Id)
    ensures DeleteReceipt(a + b, receiptId) == DeleteReceipt(a, receiptId) + DeleteReceipt(b, receiptId)
  {
    FilterAppend(a, b, x => x != receiptId);
  }

  /** Deleting a freshly registered receipt restores the group's receipt list. */
  lemma DeleteRegisteredReceipt(group: Group, receiptId: Id)
    requires receiptId !in group.receipts
    ensures DeleteReceipt(RegisterReceipt(group, receiptId).receipts, receiptId) == group.receipts
  {
    FilterAppend(group.receipts, [receiptId], x => x != receiptId);
    FilterAllKept(group.receipts, x => x != receiptId);
  }
}

=== FILE: group_totals.dfy ===
/** The group page's own receipt total (`calculateReceiptTotal`), written
    independently of the receipt page's `calculateSubtotal`/`calculateTaxes`. */
module GroupTotals {
  import opened Wrappers
  import opened Entities
  import opened ReceiptTotals

  /** `receipt.items?.reduce(...) || 0`: a missing list sums to 0. */
  function GroupSubtotal(receipt: Receipt): (subtotal: real)
    ensures receipt.items.None? ==> subtotal == 0.0
    ensures subtotal == CalculateSubtotal(receipt.items)
  {
    match receipt.items
    case None => 0.0
    case Some(items) => SumLines(items)
  }

  /** `calculateReceiptTotal`: starting from the subtotal, each truthy rate adds
      its percentage of the subtotal (not of the running total). It agrees with
      the receipt page's `calculateTaxes(calculateSubtotal(items), receipt).total`
      on every receipt. */
  function CalculateReceiptTotal(receipt: Receipt): (total: real)
    ensures var sub := GroupSubtotal(receipt);
      total == sub * (1.0 + Rate(receipt.sst) / 100.0 + Rate(receipt.serviceCharge) / 100.0)
    ensures !Truthy(receipt.sst) && !Truthy(receipt.serviceCharge) ==> total == GroupSubtotal(receipt)
    ensures GroupSubtotal(receipt) == CalculateSubtotal(receipt.items)
    ensures total == CalculateTaxes(CalculateSubtotal(receipt.items), receipt).total
  {
    var subtotal := GroupSubtotal(receipt);
    var withSst := if Truthy(receipt.sst) then subtotal + subtotal * (receipt.sst.value / 100.0) else subtotal;
    if Truthy(receipt.serviceCharge) then withSst + subtotal * (receipt.serviceCharge.value / 100.0) else withSst
  }

  /** With non-negative prices, quantities and rates, `0 <= subtotal <= total`. */
  lemma TotalBounds(receipt: Receipt)
    requires receipt.items.Some? ==> forall i :: 0 <= i < |receipt.items.value| ==> NonNegative(receipt.items.value[i])
    requires receipt.sst.Some? ==> receipt.sst.value >= 0.0
    requires receipt.serviceCharge.Some? ==> receipt.serviceCharge.value >= 0.0
    ensures 0.0 <= GroupSubtotal(receipt) <= CalculateReceiptTotal(receipt)
  {
    if receipt.items.Some? {
      SumLinesNonNegative(receipt.items.value);
    }
    var sub := GroupSubtotal(receipt);
    assert sub * (Rate(receipt.sst) / 100.0) >= 0.0;
    assert sub * (Rate(receipt.serviceCharge) / 100.0) >= 0.0;
  }
}

=== FILE: item_edits.dfy ===
/** The item-list transforms inside the receipt mutators (`updateItemUsers`,
    `addItemToReceipt`, `deleteReceiptItem`, `updateReceiptItem`). Each reads the
    stored `items`, builds a new list and writes it back; here the list read is a
    parameter and the list written is the result. */
module ItemEdits {
  import opened Wrappers
  import opened Entities
  import opened ReceiptTotals
  import opened MemberShares

  /** A non-empty list replaces the item's consumers; an empty or missing one
      deletes the field. */
  function SetUserIds(item: Item, userIds: Option<seq<Id>>): (r: Item)
    ensures r.userIds.Some? <==> userIds.Some? && |userIds.value| > 0
    ensures r.userIds.Some? ==> r.userIds == userIds
    ensures Assigned(r) <==> r.userIds.Some?
    ensures r.name == item.name && r.price == item.price && r.quantity == item.quantity
    ensures r.totalAmount == item.totalAmount && r.createdAt == item.createdAt
    ensures r.updatedAt == item.updatedAt && r.updatedBy == item.updatedBy
  {
    if userIds.Some? && |userIds.value| > 0 then item.(userIds := userIds) else item.(userIds := None)
  }

  /** `updateItemUsers`: the item at `index` gets the new consumers; the list keeps
      its length and every other item. */
  function UpdateItemUsers(items: seq<Item>, index: nat, userIds: Option<seq<Id>>): (r: seq<Item>)
    requires index < |items|
    ensures |r| == |items|
    ensures forall k :: 0 <= k < |r| && k != index ==> r[k] == items[k]
    ensures r[index] == SetUserIds(items[index], userIds)
  {
    items[index := SetUserIds(items[index], userIds)]
  }

  /** Reassigning consumers never changes the receipt's subtotal. */
  lemma UpdateItemUsersKeepsSubtotal(items: seq<Item>, index: nat, userIds: Option<seq<Id>>)
    requires index < |items|
    ensures SumLines(UpdateItemUsers(items, index, userIds)) == SumLines(items)
  {
    var x := SetUserIds(items[index], userIds);
    assert LineTotal(x) == LineTotal(items[index]);
    SumLinesUpdate(items, index, x);
  }

  /** Writing the same consumers twice is writing them once. */
  lemma UpdateItemUsersIdempotent(items: seq<Item>, index: nat, userIds: Option<seq<Id>>)
    requires index < |items|
    ensures UpdateItemUsers(UpdateItemUsers(items, index, userIds), index, userIds)
      == UpdateItemUsers(items, index, userIds)
  {
  }

  /** What the add-item form submits. A `None` number is one `Number` cannot
      parse (or a missing field). Any `userIds` the form sends are ignored. */
  datatype ItemInput = ItemInput(
    name: Option<string>,
    price: Option<real>,
    quantity: Option<real>,
    userIds: Option<seq<Id>>,
    updatedBy: Option<string>)

  /** `Number(x) || 0`: an unparsable value becomes 0; a parsed 0 stays 0. */
  function Coerce(x: Option<real>): (r: real)
    ensures x.None? ==> r == 0.0
    ensures x.Some? ==> r == x.value
  {
    x.GetOr(0.0)
  }

  /** `s || null` on a string: the empty string is stored as `null`. */
  function TextOrNull(s: Option<string>): (r: Option<string>)
    ensures r.Some? <==> s.Some? && s.value != ""
    ensures r.Some? ==> r == s
  {
    if s.Some? && s.value != "" then s else None
  }

  /** The line `addItemToReceipt` builds. The clock is read twice, once for
      `createdAt` and once for `updatedAt`; the two readings are parameters. */
  function NewItem(input: ItemInput, createdAt: string, updatedAt: string): (item: Item)
    ensures item.name == input.name.GetOr("")
    ensures item.price == Coerce(input.price) && item.quantity == Coerce(input.quantity)
    ensures item.totalAmount == Some(LineTotal(item))
    ensures item.userIds.None? && !Assigned(item)
    ensures item.createdAt == Some(createdAt) && item.updatedAt == Some(updatedAt)
    ensures item.updatedBy == TextOrNull(input.updatedBy)
    ensures item.updatedBy.Some? ==> item.updatedBy.value != ""
  {
    var price := Coerce(input.price);
    var quantity := Coerce(input.quantity);
    var item := Item(input.name.GetOr(""), price, quantity, None, Some(price * quantity),
                     Some(createdAt), Some(updatedAt), TextOrNull(input.updatedBy));
    assert LineTotal(item) == price * quantity;
    item
  }

  /** `addItemToReceipt`: `[...(items || []), itemToAdd]`. */
  function AddItemToReceipt(current: Option<seq<Item>>, input: ItemInput, createdAt: string, updatedAt: string)
    : (r: seq<Item>)
    ensures |r| == |current.GetOr([])| + 1
    ensures r[..|r| - 1] == current.GetOr([])
    ensures r[|r| - 1] == NewItem(input, createdAt, updatedAt)
  {
    current.GetOr([]) + [NewItem(input, createdAt, updatedAt)]
  }

  /** Adding an item raises the subtotal by exactly its price times quantity. */
  lemma AddItemSubtotal(current: Option<seq<Item>>, input: ItemInput, createdAt: string, updatedAt: string)
    ensures CalculateSubtotal(Some(AddItemToReceipt(current, input, createdAt, updatedAt)))
      == CalculateSubtotal(current) + Coerce(input.price) * Coerce(input.quantity)
  {
    SumLinesAppend(current.GetOr([]), [NewItem(input, createdAt, updatedAt)]);
  }

  /** An appended line's share adds to the member's pre-tax amount. */
  lemma {:induction false} PreTaxAppend(items: seq<Item>, item: Item, id: Id)
    ensures PreTaxTotal(items + [item], id) == PreTaxTotal(items, id) + Share(item, id)
  {
    if |items| > 0 {
      assert (items + [item])[1..] == items[1..] + [item];
      PreTaxAppend(items[1..], item, id);
    } else {
      assert items + [item] == [item];
    }
  }

  /** A new item is shared by nobody, so no member's pre-tax amount changes. */
  lemma AddItemChargesNobody(current: Option<seq<Item>>, input: ItemInput, createdAt: string, updatedAt: string, id: Id)
    ensures PreTaxTotal(AddItemToReceipt(current, input, createdAt, updatedAt), id) == PreTaxTotal(current.GetOr([]), id)
  {
    PreTaxAppend(current.GetOr([]), NewItem(input, createdAt, updatedAt), id);
  }

  /** Where `splice(start, 1)` starts: a negative start counts back from the end
      (clamped at 0); a start past the end is the end. */
  function SpliceStart(len: nat, start: int): (s: nat)
    ensures s <= len
    ensures 0 <= start <= len ==> s == start
    ensures start > len ==> s == len
    ensures start < 0 && len + start >= 0 ==> s == len + start
    ensures start < 0 && len + start < 0 ==> s == 0
  {
    if start < 0 then (if len + start < 0 then 0 else len + start)
    else if start > len then len
    else start
  }

  /** `deleteReceiptItem`: `items.splice(index, 1)` on a copy. */
  function DeleteReceiptItem(items: seq<Item>, index: int): (r: seq<Item>)
    ensures var s := SpliceStart(|items|, index);
      s < |items| ==>
        && |r| == |items| - 1
        && (forall k :: 0 <= k < s ==> r[k] == items[k])
        && (forall k :: s <= k < |r| ==> r[k] == items[k + 1])
    ensures SpliceStart(|items|, index) == |items| ==> r == items
  {
    var s := SpliceStart(|items|, index);
    if s < |items| then items[..s] + items[s + 1..] else items
  }

  /** Deleting a line lowers the subtotal by exactly that line's amount. */
  lemma DeleteItemSubtotal(items: seq<Item>, index: int)
    requires SpliceStart(|items|, index) < |items|
    ensures SumLines(DeleteReceiptItem(items, index))
      == SumLines(items) - LineTotal(items[SpliceStart(|items|, index)])
  {
    var s := SpliceStart(|items|, index);
    assert DeleteReceiptItem(items, index) == items[..s] + items[s + 1..];
    SumLinesSplit(items, s);
    SumLinesAppend(items[..s], items[s + 1..]);
  }

  /** Deleting the item just added, by its index or as index -1, restores the list. */
  lemma AddThenDelete(current: Option<seq<Item>>, input: ItemInput, createdAt: string, updatedAt: string)
    ensures DeleteReceiptItem(AddItemToReceipt(current, input, createdAt, updatedAt), |current.GetOr([])|)
      == current.GetOr([])
    ensures DeleteReceiptItem(AddItemToReceipt(current, input, createdAt, updatedAt), -1) == current.GetOr([])
  {
  }

  /** The fields an edit supplies; `None` means the key is absent from the update.
      `updatedBy` is always written, absent or not. */
  datatype ItemPatch = ItemPatch(
    name: Option<string>,
    price: Option<real>,
    quantity: Option<real>,
    userIds: Option<seq<Id>>,
    updatedBy: Option<string>)

  /** `{ ...item, ...patch, updatedAt: now, updatedBy: patch.updatedBy }`. The
      stored `totalAmount` is kept even when the price or quantity changes. */
  function Merge(item: Item, patch: ItemPatch, now: string): (r: Item)
    ensures r.name == patch.name.GetOr(item.name)
    ensures r.price == patch.price.GetOr(item.price)
    ensures r.quantity == patch.quantity.GetOr(item.quantity)
    ensures r.userIds == (if patch.userIds.Some? then patch.userIds else item.userIds)
    ensures r.totalAmount == item.totalAmount && r.createdAt == item.createdAt
    ensures r.updatedAt == Some(now) && r.updatedBy == patch.updatedBy
  {
    Item(
      patch.name.GetOr(item.name),
      patch.price.GetOr(item.price),
      patch.quantity.GetOr(item.quantity),
      if patch.userIds.Some? then patch.userIds else item.userIds,
      item.totalAmount,
      item.createdAt,
      Some(now),
      patch.updatedBy)
  }

  /** `updateReceiptItem`. `stored` is the receipt's item list, `None` when the
      receipt does not exist, in which case nothing is written. */
  function UpdateReceiptItem(stored: Option<seq<Item>>, index: nat, patch: ItemPatch, now: string)
    : (r: Option<seq<Item>>)
    requires stored.Some? ==> index < |stored.value|
    ensures r.None? <==> stored.None?
    ensures r.Some? ==>
      && |r.value| == |stored.value|
      && r.value[index] == Merge(stored.value[index], patch, now)
      && forall k :: 0 <= k < |r.value| && k != index ==> r.value[k] == stored.value[k]
  {
    match stored
    case None => None
    case Some(items) => Some(items[index := Merge(items[index], patch, now)])
  }

  /** Applying the same edit twice at the same time is applying it once. */
  lemma MergeIdempotent(item: Item, patch: ItemPatch, now: string)
    ensures Merge(Merge(item, patch, now), patch, now) == Merge(item, patch, now)
  {
  }

  /** An edit moves the subtotal by the difference of the old and new line amounts. */
  lemma UpdateItemSubtotal(items: seq<Item>, index: nat, patch: ItemPatch, now: string)
    requires index < |items|
    ensures var r := UpdateReceiptItem(Some(items), index, patch, now).value;
      SumLines(r) == SumLines(items) - LineTotal(items[index]) + LineTotal(Merge(items[index], patch, now))
  {
    SumLinesUpdate(items, index, Merge(items[index], patch, now));
  }

  /** An edit that changes the price leaves the stored `totalAmount` of a new item
      out of date; no total reads that field. */
  lemma StaleTotalAmount(input: ItemInput, created: string, patch: ItemPatch, now: string)
    requires patch.price.Some? && patch.quantity.None?
    requires Coerce(input.quantity) != 0.0 && patch.price.value != Coerce(input.price)
    ensures var edited := Merge(NewItem(input, created, created), patch, now);
      edited.totalAmount.Some? && edited.totalAmount.value != LineTotal(edited)
  {
    var item := NewItem(input, created, created);
    var edited := Merge(item, patch, now);
    assert edited.totalAmount.value == Coerce(input.price) * Coerce(input.quantity);
    assert LineTotal(edited) == patch.price.value * Coerce(input.quantity);
  }
}

=== FILE: member_shares.dfy ===
/** Per-member figures of the receipt page's user summary: the items a member
    shares (`getUserItems`) and what the member pays (`calculateUserTotal`). */
module MemberShares {
  import opened Wrappers
  import opened Seqs
  import opened Entities
  import opened ReceiptTotals

  /** `item.userIds && item.userIds.includes(userId)`. */
  predicate Includes(item: Item, id: Id) {
    item.userIds.Some? && id in item.userIds.value
  }

  /** The line has at least one consumer; other lines are charged to nobody. */
  predicate Assigned(item: Item) {
    item.userIds.Some? && |item.userIds.value| > 0
  }

  /** `(item.price * item.quantity) / item.userIds.length`. Only ever evaluated for a
      line some member is in, so the divisor is at least 1. */
  function PerPersonCost(item: Item): real
    requires Assigned(item)
  {
    LineTotal(item) / (|item.userIds.value| as real)
  }

  /** What one line charges member `id` before tax. */
  function Share(item: Item, id: Id): real
  {
    if Includes(item, id) then PerPersonCost(item) else 0.0
  }

  /** The `items.forEach` loop of `calculateUserTotal`: the member's pre-tax amount.
      Real addition is associative, so summing from the front is the loop's sum. */
  function PreTaxTotal(items: seq<Item>, id: Id): real
  {
    if |items| == 0 then 0.0 else Share(items[0], id) + PreTaxTotal(items[1..], id)
  }

  /** `if (receipt.sst) total += total * (receipt.sst / 100)`: a truthy rate is
      applied to the running total. */
  function Compound(amount: real, rate: Option<real>): real
  {
    if Truthy(rate) then amount + amount * (rate.value / 100.0) else amount
  }

  /** The rates applied one after the other, each to the running total. */
  function ApplyInTurn(total: real, rates: seq<Option<real>>): real
    decreases |rates|
  {
    if |rates| == 0 then total else ApplyInTurn(Compound(total, rates[0]), rates[1..])
  }

  /** Two rates in turn: the second is applied to the result of the first. */
  lemma ApplyTwo(total: real, first: Option<real>, second: Option<real>)
    ensures ApplyInTurn(total, [first, second]) == Compound(Compound(total, first), second)
  {
    assert [first, second][1..] == [second];
    assert [second][1..] == [];
    calc {
      ApplyInTurn(total, [first, second]);
      ApplyInTurn(Compound(total, first), [second]);
      ApplyInTurn(Compound(Compound(total, first), second), []);
    }
  }

  /** `calculateUserTotal`: the member's pre-tax amount, with the SST and then the
      service charge applied to the running total when that amount is positive. */
  function CalculateUserTotal(items: seq<Item>, receipt: Receipt, id: Id): (r: real)
    ensures PreTaxTotal(items, id) <= 0.0 ==> r == PreTaxTotal(items, id)
    ensures !Truthy(receipt.sst) && !Truthy(receipt.serviceCharge) ==> r == PreTaxTotal(items, id)
  {
    var b := PreTaxTotal(items, id);
    ApplyTwo(b, receipt.sst, receipt.serviceCharge);
    if b > 0.0 then ApplyInTurn(b, [receipt.sst, receipt.serviceCharge]) else b
  }

  /** The body of `calculateUserTotal` for a positive amount, written out. */
  lemma UserTotalUnfolds(items: seq<Item>, receipt: Receipt, id: Id)
    ensures var b := PreTaxTotal(items, id);
      CalculateUserTotal(items, receipt, id)
        == if b > 0.0 then Compound(Compound(b, receipt.sst), receipt.serviceCharge) else b
  {
    ApplyTwo(PreTaxTotal(items, id), receipt.sst, receipt.serviceCharge);
  }

  /** For a positive pre-tax amount the service charge is applied on top of the
      SST-inclusive amount, so the two rates compound. */
  lemma UserTotalCompounds(items: seq<Item>, receipt: Receipt, id: Id)
    requires PreTaxTotal(items, id) > 0.0
    ensures var b := PreTaxTotal(items, id);
      CalculateUserTotal(items, receipt, id)
        == b * (1.0 + Rate(receipt.sst) / 100.0) * (1.0 + Rate(receipt.serviceCharge) / 100.0)
  {
    UserTotalUnfolds(items, receipt, id);
  }

  /** One row of `getUserItems`: the line and the member's cost of it. */
  datatype UserItem = UserItem(item: Item, perPersonCost: real)

  /** The row's cost times the line's number of consumers is the line amount. */
  predicate CostSplitsLine(row: UserItem)
    requires row.item.userIds.Some?
  {
    row.perPersonCost * (|row.item.userIds.value| as real) == LineTotal(row.item)
  }

  /** The `map` step of `getUserItems`: each line with what it costs member `id`. */
  function Rows(lines: seq<Item>, id: Id): (r: seq<UserItem>)
    ensures |r| == |lines|
    ensures forall k :: 0 <= k < |r| ==> r[k] == UserItem(lines[k], Share(lines[k], id))
  {
    if |lines| == 0 then [] else [UserItem(lines[0], Share(lines[0], id))] + Rows(lines[1..], id)
  }

  /** The `filter` step of `getUserItems`: the lines the member shares, in receipt order. */
  function Mine(items: seq<Item>, id: Id): (mine: seq<Item>)
    ensures |mine| <= |items|
    ensures forall k :: 0 <= k < |mine| ==> mine[k] in items && Includes(mine[k], id)
    ensures forall i :: 0 <= i < |items| && Includes(items[i], id) ==> items[i] in mine
  {
    Filter(items, (it: Item) => Includes(it, id))
  }

  /** `Mine` line by line: a shared line is kept in front of the rest. */
  lemma MineCons(x: Item, items: seq<Item>, id: Id)
    ensures Mine([], id) == []
    ensures Mine([x] + items, id) == (if Includes(x, id) then [x] else []) + Mine(items, id)
  {
    assert ([x] + items)[1..] == items;
    assert [] + Mine(items, id) == Mine(items, id);
  }

  /** `getUserItems`: the lines the member shares, in receipt order, each with
      its per-person cost. */
  function GetUserItems(items: seq<Item>, id: Id): (r: seq<UserItem>)
    ensures |r| <= |items|
    ensures forall k :: 0 <= k < |r| ==>
      && r[k].item in items
      && Includes(r[k].item, id)
      && CostSplitsLine(r[k])
    ensures forall i :: 0 <= i < |items| && Includes(items[i], id) ==>
      exists k :: 0 <= k < |r| && r[k].item == items[i]
  {
    var mine := Mine(items, id);
    var rows := Rows(mine, id);
    RowsCosts(items, mine, id, rows);
    RowsCover(items, mine, id);
    rows
  }

  /** Every row of included lines of `items` carries the line's per-person cost. */
  lemma RowsCosts(items: seq<Item>, lines: seq<Item>, id: Id, r: seq<UserItem>)
    requires forall k :: 0 <= k < |lines| ==> lines[k] in items && Includes(lines[k], id)
    requires r == Rows(lines, id)
    ensures forall k :: 0 <= k < |r| ==>
      && r[k].item in items
      && Includes(r[k].item, id)
      && CostSplitsLine(r[k])
  {
    forall k | 0 <= k < |r|
      ensures && r[k].item in items
              && Includes(r[k].item, id)
              && CostSplitsLine(r[k])
    {
      CostTimesConsumers(lines[k], id);
    }
  }

  /** Every line the filter keeps has a row. */
  lemma RowsCover(items: seq<Item>, mine: seq<Item>, id: Id)
    requires forall i :: 0 <= i < |items| && Includes(items[i], id) ==> items[i] in mine
    ensures forall i :: 0 <= i < |items| && Includes(items[i], id) ==>
      exists k :: 0 <= k < |Rows(mine, id)| && Rows(mine, id)[k].item == items[i]
  {
    forall i | 0 <= i < |items| && Includes(items[i], id)
      ensures exists k :: 0 <= k < |Rows(mine, id)| && Rows(mine, id)[k].item == items[i]
    {
      RowOf(mine, items[i], id);
    }
  }

  /** A line among `lines` has a row. */
  lemma RowOf(lines: seq<Item>, x: Item, id: Id)
    requires x in lines
    ensures exists k :: 0 <= k < |Rows(lines, id)| && Rows(lines, id)[k].item == x
  {
    var k := IndexOf(lines, x);
    assert Rows(lines, id)[k] == UserItem(lines[k], Share(lines[k], id));
  }

  /** A consumer's share times the number of consumers is the line amount. */
  lemma CostTimesConsumers(item: Item, id: Id)
    requires Includes(item, id)
    ensures Share(item, id) * (|item.userIds.value| as real) == LineTotal(item)
  {
    assert |item.userIds.value| > 0;
  }

  /** The sum of the per-person costs shown in the member's breakdown. */
  function SumCosts(rows: seq<UserItem>): real
  {
    if |rows| == 0 then 0.0 else rows[0].perPersonCost + SumCosts(rows[1..])
  }

  /** The two routines of the user summary agree: the pre-tax amount
      `calculateUserTotal` accumulates equals the sum of the per-person costs
      `getUserItems` lists. */
  lemma {:induction false} PreTaxMatchesUserItems(items: seq<Item>, id: Id)
    ensures PreTaxTotal(items, id) == SumCosts(GetUserItems(items, id))
  {
    if |items| > 0 {
      PreTaxMatchesUserItems(items[1..], id);
      GetUserItemsCons(items[0], items[1..], id);
      assert [items[0]] + items[1..] == items;
      if Includes(items[0], id) {
        RowsCons(items[0], Mine(items[1..], id), id);
      } else {
        assert [] + GetUserItems(items[1..], id) == GetUserItems(items[1..], id);
      }
    }
  }

  /** `getUserItems` row by row: a line the member shares contributes one row, in
      receipt order, with its per-person cost; any other line contributes none. */
  lemma GetUserItemsCons(x: Item, items: seq<Item>, id: Id)
    ensures GetUserItems([], id) == []
    ensures GetUserItems([x] + items, id)
      == (if Includes(x, id) then [UserItem(x, PerPersonCost(x))] else []) + GetUserItems(items, id)
  {
    MineCons(x, items, id);
    if Includes(x, id) {
      RowsCons(x, Mine(items, id), id);
    } else {
      assert [] + GetUserItems(items, id) == GetUserItems(items, id);
    }
  }

  /** The rows of a line followed by more lines, and their cost sum. */
  lemma RowsCons(x: Item, lines: seq<Item>, id: Id)
    ensures Rows([x] + lines, id) == [UserItem(x, Share(x, id))] + Rows(lines, id)
    ensures SumCosts(Rows([x] + lines, id)) == Share(x, id) + SumCosts(Rows(lines, id))
  {
    assert ([x] + lines)[1..] == lines;
    var rows := [UserItem(x, Share(x, id))] + Rows(lines, id);
    assert rows[1..] == Rows(lines, id);
  }

  /** A member in no line has nothing listed and pays nothing. */
  lemma {:induction false} UninvolvedMemberPaysNothing(items: seq<Item>, receipt: Receipt, id: Id)
    requires forall i :: 0 <= i < |items| ==> !Includes(items[i], id)
    ensures PreTaxTotal(items, id) == 0.0
    ensures CalculateUserTotal(items, receipt, id) == 0.0
    ensures GetUserItems(items, id) == []
  {
    if |items| > 0 {
      UninvolvedMemberPaysNothing(items[1..], receipt, id);
    }
  }

  /** Applying two percentages one after the other adds their product term. */
  lemma CompoundExpansion(b: real, s: real, c: real)
    ensures b * (1.0 + s / 100.0) * (1.0 + c / 100.0)
      == b + b * s / 100.0 + b * c / 100.0 + b * s * c / 10000.0
  {
    var x := b * (1.0 + s / 100.0);
    assert x == b + b * s / 100.0;
    assert x * (1.0 + c / 100.0) == x + x * c / 100.0;
    assert x * c / 100.0 == b * c / 100.0 + b * s * c / 10000.0;
  }

  /** The compounding per-member total, multiplied out. */
  lemma UserTotalExpanded(items: seq<Item>, receipt: Receipt, id: Id)
    requires PreTaxTotal(items, id) > 0.0
    ensures var b := PreTaxTotal(items, id);
      var s := Rate(receipt.sst);
      var c := Rate(receipt.serviceCharge);
      CalculateUserTotal(items, receipt, id) == b + b * s / 100.0 + b * c / 100.0 + b * s * c / 10000.0
  {
    UserTotalCompounds(items, receipt, id);
    CompoundExpansion(PreTaxTotal(items, id), Rate(receipt.sst), Rate(receipt.serviceCharge));
  }

  /** For a non-negative pre-tax amount b, the compounding per-member total exceeds
      the additive receipt formula (`calculateTaxes`) applied to b by exactly the
      product term `b * sst * serviceCharge / 10000`. A negative amount is returned
      unchanged, so the identity does not extend to it. */
  lemma UserTotalVersusTaxes(items: seq<Item>, receipt: Receipt, id: Id)
    requires PreTaxTotal(items, id) >= 0.0
    ensures var b := PreTaxTotal(items, id);
      CalculateUserTotal(items, receipt, id)
        == CalculateTaxes(b, receipt).total + b * Rate(receipt.sst) * Rate(receipt.serviceCharge) / 10000.0
  {
    var b := PreTaxTotal(items, id);
    UserTotalUnfolds(items, receipt, id);
    if b > 0.0 {
      CompoundVersusTaxes(b, receipt);
    } else {
      assert CalculateTaxes(b, receipt).total == 0.0;
    }
  }

  /** Both rates applied in turn to an amount, against `calculateTaxes` on it. */
  lemma CompoundVersusTaxes(b: real, receipt: Receipt)
    ensures Compound(Compound(b, receipt.sst), receipt.serviceCharge)
      == CalculateTaxes(b, receipt).total + b * Rate(receipt.sst) * Rate(receipt.serviceCharge) / 10000.0
  {
    var s := Rate(receipt.sst);
    var c := Rate(receipt.serviceCharge);
    assert Compound(Compound(b, receipt.sst), receipt.serviceCharge) == b * (1.0 + s / 100.0) * (1.0 + c / 100.0);
    CompoundExpansion(b, s, c);
  }

  /** For a non-negative pre-tax amount, the per-member total agrees with
      `calculateTaxes` on the same amount exactly when the amount is 0 (a member on
      no line) or at least one of the two rates is falsy. */
  lemma UserTotalAgreesWithTaxesIff(items: seq<Item>, receipt: Receipt, id: Id)
    requires PreTaxTotal(items, id) >= 0.0
    ensures CalculateUserTotal(items, receipt, id) == CalculateTaxes(PreTaxTotal(items, id), receipt).total
      <==> PreTaxTotal(items, id) == 0.0 || !Truthy(receipt.sst) || !Truthy(receipt.serviceCharge)
  {
    var b := PreTaxTotal(items, id);
    var s := Rate(receipt.sst);
    var c := Rate(receipt.serviceCharge);
    UserTotalVersusTaxes(items, receipt, id);
    if b != 0.0 && Truthy(receipt.sst) && Truthy(receipt.serviceCharge) {
      assert s * c != 0.0;
      assert b * (s * c) != 0.0;
      assert b * s * c / 10000.0 != 0.0;
    } else {
      assert b == 0.0 || s == 0.0 || c == 0.0;
      assert b * s * c == 0.0;
    }
  }
}

=== FILE: names.dfy ===
/** How the receipt page shows who shares an item (`getUserNames`): the names of
    the known members among the item's `userIds`, in that order, joined by ", ". */
module Names {
  import opened Wrappers
  import opened Seqs
  import opened Entities

  /** The label shown for an item nobody shares ("unassigned"). */
  const Unassigned: string := "未分配"

  /** The separator between names. */
  const Separator: string := ", "

  /** `group.members.find(m => m.id === userId)`: the first member with that id. */
  function Find(members: seq<Member>, id: Id): (r: Option<Member>)
    ensures r.None? <==> forall k :: 0 <= k < |members| ==> members[k].id != id
    ensures r.Some? ==> exists k :: 0 <= k < |members| && members[k] == r.value && r.value.id == id
                                    && forall j :: 0 <= j < k ==> members[j].id != id
  {
    if |members| == 0 then None
    else if members[0].id == id then Some(members[0])
    else
      var r := Find(members[1..], id);
      assert forall k :: 1 <= k < |members| ==> members[k] == members[1..][k - 1];
      r
  }

  /** `user ? user.name : ''`: the name of the first member with the id, empty when no member has it. */
  function NameOf(members: seq<Member>, id: Id): (name: string)
    ensures (forall k :: 0 <= k < |members| ==> members[k].id != id) ==> name == ""
    ensures name != "" ==> exists k :: 0 <= k < |members| && members[k].id == id && members[k].name == name
    ensures forall k :: (0 <= k < |members| && members[k].id == id && (forall j :: 0 <= j < k ==> members[j].id != id)) ==> name == members[k].name
  {
    match Find(members, id)
    case None => ""
    case Some(m) => m.name
  }

  /** The mapped names with the empty ones dropped (`.filter(Boolean)`). */
  function DisplayNames(userIds: seq<Id>, members: seq<Member>): (r: seq<string>)
    ensures forall i :: 0 <= i < |r| ==> r[i] != ""
  {
    var names := seq(|userIds|, k requires 0 <= k < |userIds| => NameOf(members, userIds[k]));
    Filter(names, n => n != "")
  }

  /** `getUserNames`: the unassigned label for an absent or empty list; otherwise
      the displayed names joined by the separator. The result is empty exactly
      when no id in the list names a member with a non-empty name. */
  function GetUserNames(userIds: Option<seq<Id>>, members: seq<Member>): (r: string)
    ensures userIds.None? || |userIds.value| == 0 ==> r == Unassigned
    ensures userIds.Some? && |userIds.value| > 0 ==> r == Join(DisplayNames(userIds.value, members), Separator)
    ensures userIds.Some? && |userIds.value| > 0 ==>
      (r == "" <==> forall i :: 0 <= i < |userIds.value| ==> NameOf(members, userIds.value[i]) == "")
  {
    if userIds.None? || |userIds.value| == 0 then Unassigned
    else
      var parts := DisplayNames(userIds.value, members);
      EmptyNamesIff(userIds.value, members);
      JoinEmptyIff(parts, Separator);
      Join(parts, Separator)
  }

  /** Nothing is displayed exactly when every id maps to an empty name. */
  lemma EmptyNamesIff(userIds: seq<Id>, members: seq<Member>)
    ensures |DisplayNames(userIds, members)| == 0
      <==> forall i :: 0 <= i < |userIds| ==> NameOf(members, userIds[i]) == ""
  {
    var names := seq(|userIds|, k requires 0 <= k < |userIds| => NameOf(members, userIds[k]));
    if exists i :: 0 <= i < |userIds| && NameOf(members, userIds[i]) != "" {
      var i :| 0 <= i < |userIds| && NameOf(members, userIds[i]) != "";
      assert names[i] != "";
      assert names[i] in DisplayNames(userIds, members);
    } else {
      var r := DisplayNames(userIds, members);
      if |r| > 0 {
        assert r[0] in names;
      }
    }
  }

  /** Joining non-empty parts is empty exactly when there are no parts. */
  lemma {:induction false} JoinEmptyIff(parts: seq<string>, sep: string)
    requires forall i :: 0 <= i < |parts| ==> parts[i] != ""
    ensures Join(parts, sep) == "" <==> |parts| == 0
  {
    if |parts| > 1 {
      JoinEmptyIff(parts[1..], sep);
      assert |Join(parts, sep)| >= |parts[0]|;
    }
  }

  /** Ids that name no member produce the empty string, not the unassigned label. */
  lemma AllUnknownIsEmpty(userIds: seq<Id>, members: seq<Member>)
    requires |userIds| > 0
    requires forall i, k :: 0 <= i < |userIds| && 0 <= k < |members| ==> members[k].id != userIds[i]
    ensures GetUserNames(Some(userIds), members) == ""
  {
    forall i | 0 <= i < |userIds| ensures NameOf(members, userIds[i]) == "" {
      assert Find(members, userIds[i]).None?;
    }
  }

  /** When every id names a member with a non-empty name, each id contributes
      exactly its member's name, at its own position. */
  lemma AllKnownInOrder(userIds: seq<Id>, members: seq<Member>)
    requires forall i :: 0 <= i < |userIds| ==> NameOf(members, userIds[i]) != ""
    ensures |DisplayNames(userIds, members)| == |userIds|
    ensures forall i :: 0 <= i < |userIds| ==> DisplayNames(userIds, members)[i] == NameOf(members, userIds[i])
  {
    var names := seq(|userIds|, k requires 0 <= k < |userIds| => NameOf(members, userIds[k]));
    FilterAllKept(names, n => n != "");
  }

  /** No ids, no names. */
  lemma DisplayNamesEmpty(members: seq<Member>)
    ensures DisplayNames([], members) == []
  {
  }

  /** One more id adds its member's name at the end when it has one, and nothing
      otherwise: together with `DisplayNamesEmpty` this fixes the names shown for
      every list, unknown ids included. */
  lemma DisplayNamesSnoc(userIds: seq<Id>, id: Id, members: seq<Member>)
    ensures DisplayNames(userIds + [id], members)
      == DisplayNames(userIds, members) + (if NameOf(members, id) != "" then [NameOf(members, id)] else [])
  {
    var ext := userIds + [id];
    var names := seq(|userIds|, k requires 0 <= k < |userIds| => NameOf(members, userIds[k]));
    var extNames := seq(|ext|, k requires 0 <= k < |ext| => NameOf(members, ext[k]));
    assert extNames == names + [NameOf(members, id)] by {
      forall k | 0 <= k < |userIds| ensures extNames[k] == names[k] {
        assert ext[k] == userIds[k];
      }
    }
    FilterAppend(names, [NameOf(members, id)], n => n != "");
    assert Filter([NameOf(members, id)], n => n != "")
      == (if NameOf(members, id) != "" then [NameOf(members, id)] else []) by {
      assert [NameOf(members, id)][1..] == [];
    }
  }

  /** One more id changes the rendered string as follows: a known name is appended
      after ", " (or alone when nothing was shown yet); an unknown id changes nothing. */
  lemma AppendName(userIds: seq<Id>, id: Id, members: seq<Member>)
    requires |userIds| > 0
    ensures var before := GetUserNames(Some(userIds), members);
      GetUserNames(Some(userIds + [id]), members)
        == if NameOf(members, id) == "" then before
           else if before == "" then NameOf(members, id)
           else before + Separator + NameOf(members, id)
  {
    DisplayNamesSnoc(userIds, id, members);
    JoinOptional(DisplayNames(userIds, members), NameOf(members, id), Separator);
  }

  /** Joining the non-empty parts with one optional part more. */
  lemma JoinOptional(parts: seq<string>, name: string, sep: string)
    requires forall i :: 0 <= i < |parts| ==> parts[i] != ""
    ensures Join(parts + (if name != "" then [name] else []), sep)
      == if name == "" then Join(parts, sep)
         else if Join(parts, sep) == "" then name
         else Join(parts, sep) + sep + name
  {
    JoinEmptyIff(parts, sep);
    if name == "" {
      assert parts + [] == parts;
    } else if |parts| == 0 {
      assert parts + [name] == [name];
    } else {
      JoinSnoc(parts, name, sep);
    }
  }

  /** Ids of deleted members are skipped: ids "b", "x", "a" with members a = Ann and
      b = Bob render as "Bob" + ", " + "Ann". */
  lemma MixedIdsExample(userIds: seq<Id>, members: seq<Member>)
    requires userIds == ["b", "x", "a"]
    requires members == [Member("a", "Ann", None), Member("b", "Bob", None)]
    ensures GetUserNames(Some(userIds), members) == "Bob" + Separator + "Ann"
  {
    ExampleNames(members);
    var one := userIds[..1];
    var two := userIds[..2];
    SingleName(one, members);
    AppendName(one, userIds[1], members);
    PrefixSnoc(userIds, 1);
    AppendName(two, userIds[2], members);
    PrefixSnoc(userIds, 2);
  }

  /** A prefix followed by the next element is the longer prefix. */
  lemma PrefixSnoc<T>(s: seq<T>, n: nat)
    requires n < |s|
    ensures s[..n] + [s[n]] == s[..n + 1]
    ensures n + 1 == |s| ==> s[..n + 1] == s
  {
  }

  /** The names the example's ids map to. */
  lemma ExampleNames(members: seq<Member>)
    requires members == [Member("a", "Ann", None), Member("b", "Bob", None)]
    ensures NameOf(members, "b") == "Bob" && NameOf(members, "x") == "" && NameOf(members, "a") == "Ann"
  {
    assert members[1..] == [Member("b", "Bob", None)];
    assert members[1..][1..] == [];
    assert Find(members[1..][1..], "x").None?;
    assert Find(members[1..], "x").None?;
    assert Find(members, "x").None?;
    assert Find(members, "b") == Some(members[1]);
    assert Find(members, "a") == Some(members[0]);
  }

  /** One id renders as its member's name. */
  lemma SingleName(userIds: seq<Id>, members: seq<Member>)
    requires |userIds| == 1
    ensures GetUserNames(Some(userIds), members) == NameOf(members, userIds[0])
  {
    DisplayNamesEmpty(members);
    DisplayNamesSnoc([], userIds[0], members);
    assert [] + [userIds[0]] == userIds;
  }
}

=== FILE: navbar.dfy ===
/** The navigation bar's breadcrumb (`renderBreadcrumb`): the location's path is
    split on '/', empty segments are dropped, and the segments are classified as
    the home page, a group page or a receipt page. */
module Navbar {
  import opened Seqs

  const Slash: char := '/'

  /** `String.prototype.split(c)`: the maximal runs between occurrences of `c`.
      There is always at least one part, and no part contains `c`. */
  function Split(s: string, c: char): (parts: seq<string>)
    ensures |parts| >= 1
    ensures forall i :: 0 <= i < |parts| ==> c !in parts[i]
  {
    if |s| == 0 then [""]
    else
      var rest := Split(s[1..], c);
      if s[0] == c then [""] + rest
      else [[s[0]] + rest[0]] + rest[1..]
  }

  /** Joining the parts with the separator gives back the string. */
  lemma {:induction false} SplitJoin(s: string, c: char)
    ensures Join(Split(s, c), [c]) == s
  {
    if |s| > 0 {
      var rest := Split(s[1..], c);
      SplitJoin(s[1..], c);
      if s[0] == c {
        assert ([""] + rest)[1..] == rest;
      } else {
        var parts := [[s[0]] + rest[0]] + rest[1..];
        if |rest| > 1 {
          assert parts[1..] == rest[1..];
        }
        assert s == [s[0]] + s[1..];
      }
    }
  }

  /** Splitting around one separator splits each side. */
  lemma {:induction false} SplitAround(x: string, y: string, c: char)
    ensures Split(x + [c] + y, c) == Split(x, c) + Split(y, c)
  {
    if |x| == 0 {
      assert x + [c] + y == [c] + y;
      assert ([c] + y)[1..] == y;
    } else {
      assert (x + [c] + y)[1..] == x[1..] + [c] + y;
      SplitAround(x[1..], y, c);
    }
  }

  /** Splitting a join of separator-free parts gives back the parts. */
  lemma {:induction false} JoinSplit(parts: seq<string>, c: char)
    requires |parts| >= 1
    requires forall i :: 0 <= i < |parts| ==> c !in parts[i]
    ensures Split(Join(parts, [c]), c) == parts
  {
    if |parts| == 1 {
      NoSeparator(parts[0], c);
    } else {
      JoinSplit(parts[1..], c);
      NoSeparator(parts[0], c);
      SplitAround(parts[0], Join(parts[1..], [c]), c);
      assert parts[0] + [c] + Join(parts[1..], [c]) == Join(parts, [c]);
      assert parts == [parts[0]] + parts[1..];
    }
  }

  /** A string without the separator is one part. */
  lemma {:induction false} NoSeparator(s: string, c: char)
    requires c !in s
    ensures Split(s, c) == [s]
  {
    if |s| > 0 {
      assert c !in s[1..] by {
        forall k | 0 <= k < |s[1..]| ensures s[1..][k] != c {
          assert s[1..][k] == s[k + 1];
        }
      }
      NoSeparator(s[1..], c);
      assert s == [s[0]] + s[1..];
    }
  }

  /** `location.pathname.split('/').filter(Boolean)`. */
  function Segments(path: string): (segs: seq<string>)
    ensures forall i :: 0 <= i < |segs| ==> segs[i] != "" && Slash !in segs[i]
  {
    Filter(Split(path, Slash), (p: string) => p != "")
  }

  /** Segments are the non-empty parts between slashes, so a path made of
      separator-free non-empty segments joined by '/' splits back into them (no
      segments give the empty path, which has none). */
  lemma SegmentsOfJoin(segs: seq<string>)
    requires forall i :: 0 <= i < |segs| ==> segs[i] != "" && Slash !in segs[i]
    ensures Segments(Join(segs, [Slash])) == segs
  {
    if |segs| > 0 {
      JoinSplit(segs, Slash);
      FilterAllKept(segs, (p: string) => p != "");
    } else {
      assert Split(Join(segs, [Slash]), Slash) == [""];
    }
  }

  /** A leading slash does not change the segments. */
  lemma LeadingSlash(path: string)
    ensures Segments([Slash] + path) == Segments(path)
  {
    SplitAround("", path, Slash);
    assert "" + [Slash] + path == [Slash] + path;
    FilterAppend([""], Split(path, Slash), (p: string) => p != "");
  }

  /** A trailing slash does not change the segments. */
  lemma TrailingSlash(path: string)
    ensures Segments(path + [Slash]) == Segments(path)
  {
    SplitAround(path, "", Slash);
    assert path + [Slash] + "" == path + [Slash];
    FilterAppend(Split(path, Slash), [""], (p: string) => p != "");
  }

  /** A doubled slash counts as one. */
  lemma DoubledSlash(x: string, y: string)
    ensures Segments(x + [Slash, Slash] + y) == Segments(x + [Slash] + y)
  {
    SplitAround(x, [Slash] + y, Slash);
    assert x + [Slash] + ([Slash] + y) == x + [Slash, Slash] + y;
    LeadingSlash(y);
    SplitAround(x, y, Slash);
    FilterAppend(Split(x, Slash), Split([Slash] + y, Slash), (p: string) => p != "");
    FilterAppend(Split(x, Slash), Split(y, Slash), (p: string) => p != "");
  }

  /** `renderBreadcrumb` on the segments. The label is "Group" exactly for
      `group/<id>` and "Receipt" exactly for `group/<id>/receipt/<id>`; every other
      path is "Home". */
  function Breadcrumb(segs: seq<string>): (crumb: string)
    ensures crumb == "Home" || crumb == "Group" || crumb == "Receipt"
    ensures crumb == "Group" <==> |segs| == 2 && segs[0] == "group"
    ensures crumb == "Receipt" <==> |segs| == 4 && segs[0] == "group" && segs[2] == "receipt"
  {
    if |segs| == 0 then "Home"
    else if segs[0] == "group" then
      if |segs| == 1 then "Home"
      else if |segs| == 2 then "Group"
      else if |segs| == 4 && segs[2] == "receipt" then "Receipt"
      else "Home"
    else "Home"
  }

  /** The label shown for a location's path: "Group" exactly when the path's
      segments are `group/<id>`, "Receipt" exactly when they are
      `group/<id>/receipt/<id>`, otherwise "Home". */
  function PathBreadcrumb(path: string): (crumb: string)
    ensures crumb == "Home" || crumb == "Group" || crumb == "Receipt"
    ensures crumb == "Group" <==> |Segments(path)| == 2 && Segments(path)[0] == "group"
    ensures crumb == "Receipt" <==>
      |Segments(path)| == 4 && Segments(path)[0] == "group" && Segments(path)[2] == "receipt"
  {
    Breadcrumb(Segments(path))
  }

  /** The group route `/group/<groupId>` is labelled "Group". */
  lemma GroupRoute(groupId: string)
    requires groupId != "" && Slash !in groupId
    ensures PathBreadcrumb([Slash] + "group" + [Slash] + groupId) == "Group"
  {
    var segs := ["group", groupId];
    assert Join(segs, [Slash]) == "group" + [Slash] + groupId by {
      assert segs[1..] == [groupId];
    }
    SegmentsOfJoin(segs);
    LeadingSlash(Join(segs, [Slash]));
    assert [Slash] + "group" + [Slash] + groupId == [Slash] + Join(segs, [Slash]);
  }

  /** The receipt route `/group/<groupId>/receipt/<receiptId>` is labelled "Receipt". */
  lemma ReceiptRoute(groupId: string, receiptId: string)
    requires groupId != "" && Slash !in groupId
    requires receiptId != "" && Slash !in receiptId
    ensures PathBreadcrumb([Slash] + "group" + [Slash] + groupId + [Slash] + "receipt" + [Slash] + receiptId) == "Receipt"
  {
    var segs := ["group", groupId, "receipt", receiptId];
    ReceiptPathIsJoin(groupId, receiptId);
    SegmentsOfJoin(segs);
    LeadingSlash(Join(segs, [Slash]));
  }

  /** The receipt route is its four segments joined by '/', after a leading '/'. */
  lemma ReceiptPathIsJoin(groupId: string, receiptId: string)
    ensures [Slash] + "group" + [Slash] + groupId + [Slash] + "receipt" + [Slash] + receiptId
      == [Slash] + Join(["group", groupId, "receipt", receiptId], [Slash])
  {
    var segs := ["group", groupId, "receipt", receiptId];
    var tail := "receipt" + [Slash] + receiptId;
    assert segs[1..][1..] == ["receipt", receiptId];
    assert Join(segs[1..][1..], [Slash]) == tail by {
      assert segs[1..][1..][1..] == [receiptId];
    }
    var mid := groupId + [Slash] + tail;
    assert Join(segs[1..], [Slash]) == mid;
    var whole := "group" + [Slash] + mid;
    assert Join(segs, [Slash]) == whole;
  }

  /** The root path has no segments and is labelled "Home". */
  lemma RootIsHome()
    ensures Segments([Slash]) == []
    ensures PathBreadcrumb([Slash]) == "Home"
  {
    LeadingSlash("");
    assert [Slash] + "" == [Slash];
  }
}

=== FILE: receipt_edits.dfy ===
/** The receipt-document writes of `createReceipt` and `updateReceiptSettings`.
    The fresh id and the timestamp are parameters. */
module ReceiptEdits {
  import opened Wrappers
  import opened Entities
  import opened ReceiptTotals
  import opened GroupTotals
  import opened MemberShares
  import opened TaxForm

  /** `createReceipt`: a receipt with no items and no rates. */
  function CreateReceipt(groupId: Id, receiptId: Id, name: string, paidBy: Option<Id>, now: string): (r: Receipt)
    ensures r.id == receiptId && r.groupId == groupId && r.name == name && r.paidBy == paidBy
    ensures r.items == Some([])
    ensures r.sst.None? && r.serviceCharge.None?
    ensures r.createdAt == now && r.updatedAt.None?
  {
    Receipt(receiptId, groupId, name, paidBy, Some([]), None, None, now, None)
  }

  /** A new receipt totals 0 on both pages and charges no member anything. */
  lemma NewReceiptIsEmpty(groupId: Id, receiptId: Id, name: string, paidBy: Option<Id>, now: string, id: Id)
    ensures var r := CreateReceipt(groupId, receiptId, name, paidBy, now);
      && CalculateReceiptTotal(r) == 0.0
      && ReceiptPageTotal(r) == 0.0
      && CalculateUserTotal(r.items.value, r, id) == 0.0
  {
  }

  /** The settings form's values; `paidBy` is stored but never used by any total. */
  datatype Settings = Settings(name: string, paidBy: Option<Id>, sst: Option<real>, serviceCharge: Option<real>)

  /** `value || null` on a rate: a falsy rate is stored as `null`. */
  function OrNull(rate: Option<real>): (r: Option<real>)
    ensures r.Some? <==> Truthy(rate)
    ensures r.Some? ==> r == rate
    ensures Rate(r) == Rate(rate)
  {
    if Truthy(rate) then rate else None
  }

  /** `updateReceiptSettings`: name and payer as given, falsy rates as `null`, a new
      update time; the items and the receipt's identity are untouched. */
  function UpdateReceiptSettings(receipt: Receipt, settings: Settings, now: string): (r: Receipt)
    ensures r.name == settings.name && r.paidBy == settings.paidBy
    ensures r.sst == OrNull(settings.sst) && r.serviceCharge == OrNull(settings.serviceCharge)
    ensures r.sst.Some? ==> r.sst.value != 0.0
    ensures r.serviceCharge.Some? ==> r.serviceCharge.value != 0.0
    ensures r.items == receipt.items && r.id == receipt.id && r.groupId == receipt.groupId
    ensures r.createdAt == receipt.createdAt && r.updatedAt == Some(now)
  {
    receipt.(
      name := settings.name,
      paidBy := settings.paidBy,
      sst := OrNull(settings.sst),
      serviceCharge := OrNull(settings.serviceCharge),
      updatedAt := Some(now))
  }

  /** Saving the same settings twice is saving them once. */
  lemma UpdateReceiptSettingsIdempotent(receipt: Receipt, settings: Settings, now: string)
    ensures UpdateReceiptSettings(UpdateReceiptSettings(receipt, settings, now), settings, now)
      == UpdateReceiptSettings(receipt, settings, now)
  {
  }

  /** Storing falsy rates as `null` does not change any total: the receipt totals
      are those of the same rates written as given. */
  lemma SettingsTotalsAsGiven(receipt: Receipt, settings: Settings, now: string)
    ensures CalculateReceiptTotal(UpdateReceiptSettings(receipt, settings, now))
      == CalculateReceiptTotal(UpdateReceiptTaxes(receipt, settings.sst, settings.serviceCharge))
  {
  }
}

=== FILE: receipt_totals.dfy ===
/** Receipt arithmetic of the receipt page: the item subtotal (`calculateSubtotal`)
    and the SST / service-charge breakdown (`calculateTaxes`). */
module ReceiptTotals {
  import opened Wrappers
  import opened Entities

  /** `items.reduce((total, item) => total + item.price * item.quantity, 0)`:
      a left fold from 0, adding the lines in list order. */
  function SumLines(items: seq<Item>): real
  {
    if |items| == 0 then 0.0
    else SumLines(items[..|items| - 1]) + LineTotal(items[|items| - 1])
  }

  /** The fold over a concatenation is the sum of the two folds. */
  lemma {:induction false} SumLinesAppend(a: seq<Item>, b: seq<Item>)
    ensures SumLines(a + b) == SumLines(a) + SumLines(b)
    decreases |b|
  {
    if |b| == 0 {
      assert a + b == a;
    } else {
      var n := |b| - 1;
      assert (a + b)[..|a + b| - 1] == a + b[..n];
      assert (a + b)[|a + b| - 1] == b[n];
      SumLinesAppend(a, b[..n]);
    }
  }

  /** The first line plus the fold of the rest. */
  lemma SumLinesCons(x: Item, s: seq<Item>)
    ensures SumLines([x] + s) == LineTotal(x) + SumLines(s)
  {
    SumLinesAppend([x], s);
    assert [x][..0] == [];
  }

  /** Splitting around one position: the lines before, the line itself, the lines after. */
  lemma SumLinesSplit(s: seq<Item>, k: nat)
    requires k < |s|
    ensures SumLines(s) == SumLines(s[..k]) + LineTotal(s[k]) + SumLines(s[k + 1..])
  {
    assert s == s[..k] + ([s[k]] + s[k + 1..]);
    SumLinesAppend(s[..k], [s[k]] + s[k + 1..]);
    SumLinesCons(s[k], s[k + 1..]);
  }

  /** Replacing the line at `k` changes the fold by the difference of the two lines. */
  lemma SumLinesUpdate(s: seq<Item>, k: nat, x: Item)
    requires k < |s|
    ensures SumLines(s[k := x]) == SumLines(s) - LineTotal(s[k]) + LineTotal(x)
  {
    SumLinesSplit(s, k);
    SumLinesSplit(s[k := x], k);
    assert s[k := x][..k] == s[..k];
    assert s[k := x][k + 1..] == s[k + 1..];
  }

  /** The subtotal depends only on which lines there are, not on their order. */
  lemma {:induction false} SumLinesPermutation(a: seq<Item>, b: seq<Item>)
    requires multiset(a) == multiset(b)
    ensures SumLines(a) == SumLines(b)
    decreases |a|
  {
    if |a| == 0 {
      assert |b| == |multiset(b)| == 0;
    } else {
      var n := |a| - 1;
      var x := a[n];
      assert a == a[..n] + [x];
      assert x in multiset(b);
      var k :| 0 <= k < |b| && b[k] == x;
      var b' := b[..k] + b[k + 1..];
      DropMatching(a, b, k);
      SumLinesPermutation(a[..n], b');
      SumLinesSplit(b, k);
      SumLinesAppend(b[..k], b[k + 1..]);
    }
  }

  /** Dropping the last line of `a` and a matching line of `b` keeps the two
      multisets equal. */
  lemma DropMatching(a: seq<Item>, b: seq<Item>, k: nat)
    requires |a| > 0 && k < |b| && b[k] == a[|a| - 1]
    requires multiset(a) == multiset(b)
    ensures multiset(a[..|a| - 1]) == multiset(b[..k] + b[k + 1..])
  {
    var n := |a| - 1;
    var x := a[n];
    var b' := b[..k] + b[k + 1..];
    assert a == a[..n] + [x];
    assert b == b[..k] + [x] + b[k + 1..];
    assert multiset(b) == multiset(b[..k]) + multiset([x]) + multiset(b[k + 1..]);
    assert multiset(a) == multiset(a[..n]) + multiset([x]);
    assert multiset(b') == multiset(b[..k]) + multiset(b[k + 1..]);
    assert multiset(a[..n]) + multiset([x]) == multiset(b') + multiset([x]);
    forall y
      ensures multiset(a[..n])[y] == multiset(b')[y]
    {
      assert (multiset(a[..n]) + multiset([x]))[y] == (multiset(b') + multiset([x]))[y];
    }
  }

  /** With non-negative prices and quantities the fold is non-negative. */
  lemma {:induction false} SumLinesNonNegative(items: seq<Item>)
    requires forall i :: 0 <= i < |items| ==> NonNegative(items[i])
    ensures SumLines(items) >= 0.0
  {
    if |items| > 0 {
      var n := |items| - 1;
      SumLinesNonNegative(items[..n]);
      var it := items[n];
      assert it.price * it.quantity >= 0.0;
    }
  }

  /** `calculateSubtotal`: 0 for a missing or empty item list, otherwise the fold. */
  function CalculateSubtotal(items: Option<seq<Item>>): (r: real)
    ensures items.None? ==> r == 0.0
    ensures items.Some? ==> r == SumLines(items.value)
  {
    if items.None? || |items.value| == 0 then 0.0
    else SumLines(items.value)
  }

  /** The object `calculateTaxes` returns. `sst` and `serviceCharge` are `None`
      (displayed as `null`) when the receipt's rate is falsy. */
  datatype Taxes = Taxes(subtotal: real, sst: Option<real>, serviceCharge: Option<real>, total: real)

  /** `receipt.sst ? subtotal * (receipt.sst / 100) : null`, and the same for the service charge. */
  function Surcharge(subtotal: real, rate: Option<real>): Option<real>
  {
    if Truthy(rate) then Some(subtotal * (rate.value / 100.0)) else None
  }

  /** `if (taxes.sst) taxes.total += taxes.sst`: only a truthy amount is added. */
  function AddIfTruthy(total: real, amount: Option<real>): real
  {
    if Truthy(amount) then total + amount.value else total
  }

  /** The truthy amounts added one after the other to the running total. */
  function AddInTurn(total: real, amounts: seq<Option<real>>): real
    decreases |amounts|
  {
    if |amounts| == 0 then total else AddInTurn(AddIfTruthy(total, amounts[0]), amounts[1..])
  }

  /** Two amounts in turn: the second is added to the result of the first. */
  lemma AddTwo(total: real, first: Option<real>, second: Option<real>)
    ensures AddInTurn(total, [first, second]) == AddIfTruthy(AddIfTruthy(total, first), second)
  {
    assert [first, second][1..] == [second];
    assert [second][1..] == [];
    calc {
      AddInTurn(total, [first, second]);
      AddInTurn(AddIfTruthy(total, first), [second]);
      AddInTurn(AddIfTruthy(AddIfTruthy(total, first), second), []);
    }
  }

  /** `calculateTaxes`. Both charges are taken from the subtotal and added to it,
      so the total is additive in the two rates, never compounding. */
  function CalculateTaxes(subtotal: real, receipt: Receipt): (t: Taxes)
    ensures t.subtotal == subtotal
    ensures t.sst.Some? <==> Truthy(receipt.sst)
    ensures t.serviceCharge.Some? <==> Truthy(receipt.serviceCharge)
    ensures t.sst.Some? ==> t.sst.value * 100.0 == subtotal * receipt.sst.value
    ensures t.serviceCharge.Some? ==> t.serviceCharge.value * 100.0 == subtotal * receipt.serviceCharge.value
    ensures t.total == subtotal + subtotal * Rate(receipt.sst) / 100.0 + subtotal * Rate(receipt.serviceCharge) / 100.0
    ensures !Truthy(receipt.sst) && !Truthy(receipt.serviceCharge) ==> t.total == subtotal
  {
    var sst := Surcharge(subtotal, receipt.sst);
    var serviceCharge := Surcharge(subtotal, receipt.serviceCharge);
    AddTwo(subtotal, sst, serviceCharge);
    Taxes(subtotal, sst, serviceCharge, AddInTurn(subtotal, [sst, serviceCharge]))
  }

  /** Subtotal 100 with 6% SST and 10% service charge comes to 116. */
  lemma TaxesExample(receipt: Receipt)
    requires receipt.sst == Some(6.0) && receipt.serviceCharge == Some(10.0)
    ensures CalculateTaxes(100.0, receipt).total == 116.0
    ensures CalculateTaxes(100.0, receipt).sst == Some(6.0)
    ensures CalculateTaxes(100.0, receipt).serviceCharge == Some(10.0)
  {
  }

  /** The receipt-page total of a receipt, as the summary panel shows it. */
  function ReceiptPageTotal(receipt: Receipt): real
  {
    CalculateTaxes(CalculateSubtotal(receipt.items), receipt).total
  }
}

=== FILE: selection.dfy ===
/** The member picker of the item forms (`UserSelect`): clicking a member
    toggles that member's id in the selected list. */
module Selection {
  import opened Seqs
  import opened Entities

  /** Removes `id` when it is selected, otherwise appends it at the end. */
  function Toggle(value: seq<Id>, id: Id): (r: seq<Id>)
    ensures id in r <==> id !in value
    ensures forall x :: x != id ==> (x in r <==> x in value)
    ensures id !in value ==> r == value + [id]
    ensures id in value && NoDup(value) ==> |r| == |value| - 1
    ensures id in value && NoDup(value) ==>
      r == value[..IndexOf(value, id)] + value[IndexOf(value, id) + 1..]
    ensures NoDup(value) ==> NoDup(r)
  {
    if id in value then
      var r := Filter(value, x => x != id);
      FilterKeepsNoDup(value, x => x != id);
      FilterDropsOne(value, id);
      r
    else
      AppendFreshNoDup(value, id);
      value + [id]
  }

  /** Appending an id that is not yet selected keeps duplicate-freedom. */
  lemma AppendFreshNoDup(value: seq<Id>, id: Id)
    requires id !in value
    ensures NoDup(value) ==> NoDup(value + [id])
  {
    if NoDup(value) {
      var r := value + [id];
      forall i, j | 0 <= i < j < |r| ensures r[i] != r[j] {
        if j == |value| {
          assert r[i] == value[i];
        } else {
          assert r[i] == value[i] && r[j] == value[j];
        }
      }
    }
  }

  /** In a duplicate-free list, filtering out a selected id removes exactly that
      one entry; the others keep their order. */
  lemma FilterDropsOne(value: seq<Id>, id: Id)
    ensures id in value && NoDup(value) ==>
      Filter(value, x => x != id) == value[..IndexOf(value, id)] + value[IndexOf(value, id) + 1..]
    ensures id in value && NoDup(value) ==> |Filter(value, x => x != id)| == |value| - 1
  {
    if id in value && NoDup(value) {
      var k := IndexOf(value, id);
      var pre := value[..k];
      var post := value[k + 1..];
      forall i | 0 <= i < |pre| ensures pre[i] != id {
        assert pre[i] == value[i];
      }
      forall i | 0 <= i < |post| ensures post[i] != id {
        assert post[i] == value[k + 1 + i];
      }
      assert value == pre + [id] + post;
      DropBetween(pre, id, post);
    }
  }

  /** Filtering an id out of `pre + [id] + post`, where only the middle entry is
      that id, leaves `pre + post`. */
  lemma DropBetween(pre: seq<Id>, id: Id, post: seq<Id>)
    requires forall i :: 0 <= i < |pre| ==> pre[i] != id
    requires forall i :: 0 <= i < |post| ==> post[i] != id
    ensures Filter(pre + [id] + post, x => x != id) == pre + post
  {
    FilterAppend(pre + [id], post, x => x != id);
    FilterAppend(pre, [id], x => x != id);
    KeepsOthers(pre, id);
    KeepsOthers(post, id);
    assert Filter([id], x => x != id) == [] by {
      assert [id][1..] == [];
    }
    assert Filter(pre + [id], x => x != id) == pre;
  }

  /** A list without the id is unchanged by filtering the id out. */
  lemma KeepsOthers(s: seq<Id>, id: Id)
    requires forall i :: 0 <= i < |s| ==> s[i] != id
    ensures Filter(s, x => x != id) == s
  {
    FilterAllKept(s, x => x != id);
  }

  /** Toggling twice always restores which members are selected. */
  lemma ToggleTwiceSameMembers(value: seq<Id>, id: Id)
    ensures forall x :: x in Toggle(Toggle(value, id), id) <==> x in value
  {
  }

  /** Toggling twice restores the list itself exactly when the id was not selected
      or was the last one selected: a selected id from the middle comes back at
      the end. */
  lemma ToggleTwice(value: seq<Id>, id: Id)
    requires NoDup(value)
    ensures Toggle(Toggle(value, id), id) == value <==> id !in value || value[|value| - 1] == id
  {
    if id !in value {
      AddThenRemove(value, id);
    } else if value[|value| - 1] == id {
      RemoveLastThenAdd(value, id);
    } else {
      var twice := Toggle(Toggle(value, id), id);
      assert twice[|twice| - 1] == id;
    }
  }

  /** Selecting an unselected id and clicking it again restores the list. */
  lemma AddThenRemove(value: seq<Id>, id: Id)
    requires id !in value
    ensures Toggle(Toggle(value, id), id) == value
  {
    forall i | 0 <= i < |value| ensures value[i] != id {
      assert value[i] in value;
    }
    DropBetween(value, id, []);
    assert value + [id] + [] == value + [id];
    assert value + [] == value;
  }

  /** Clicking the last selected id twice removes it and appends it again. */
  lemma RemoveLastThenAdd(value: seq<Id>, id: Id)
    requires NoDup(value) && |value| > 0 && value[|value| - 1] == id
    ensures Toggle(Toggle(value, id), id) == value
  {
    var pre := value[..|value| - 1];
    forall i | 0 <= i < |pre| ensures pre[i] != id {
      assert pre[i] == value[i];
    }
    DropBetween(pre, id, []);
    assert pre + [id] + [] == value;
    assert pre + [] == pre;
    assert id !in pre;
  }
}

=== FILE: seqs.dfy ===
/** Sequence helpers shared by the array transforms: duplicate-freedom,
    filtering by a predicate and joining strings with a separator. */
module Seqs {

  /** No value occurs twice in `s`. */
  predicate NoDup<T(==)>(s: seq<T>) {
    forall i, j :: 0 <= i < j < |s| ==> s[i] != s[j]
  }

  /** The position of a value known to occur in `s`. */
  function IndexOf<T(==)>(s: seq<T>, x: T): (k: nat)
    requires x in s
    ensures k < |s| && s[k] == x
  {
    if s[0] == x then 0 else 1 + IndexOf(s[1..], x)
  }

  /** `Array.prototype.filter`: the elements satisfying `keep`, in their original order. */
  function Filter<T>(s: seq<T>, keep: T -> bool): (r: seq<T>)
    ensures |r| <= |s|
    ensures forall i :: 0 <= i < |r| ==> r[i] in s && keep(r[i])
    ensures forall i :: 0 <= i < |s| && keep(s[i]) ==> s[i] in r
  {
    if |s| == 0 then []
    else if keep(s[0]) then [s[0]] + Filter(s[1..], keep)
    else Filter(s[1..], keep)
  }

  /** Filtering distributes over concatenation, so the relative order of kept elements is unchanged. */
  lemma {:induction false} FilterAppend<T>(a: seq<T>, b: seq<T>, keep: T -> bool)
    ensures Filter(a + b, keep) == Filter(a, keep) + Filter(b, keep)
  {
    if |a| == 0 {
      assert a + b == b;
    } else {
      assert (a + b)[1..] == a[1..] + b;
      FilterAppend(a[1..], b, keep);
    }
  }

  /** A sequence whose elements all pass `keep` is its own filtering. */
  lemma {:induction false} FilterAllKept<T>(s: seq<T>, keep: T -> bool)
    requires forall i :: 0 <= i < |s| ==> keep(s[i])
    ensures Filter(s, keep) == s
  {
    if |s| > 0 {
      FilterAllKept(s[1..], keep);
    }
  }

  /** Filtering twice with the same predicate is filtering once. */
  lemma FilterIdempotent<T>(s: seq<T>, keep: T -> bool)
    ensures Filter(Filter(s, keep), keep) == Filter(s, keep)
  {
    var r := Filter(s, keep);
    forall i | 0 <= i < |r|
      ensures keep(r[i])
    {
      assert r[i] in r;
    }
    FilterAllKept(r, keep);
  }

  /** Filtering keeps duplicate-freedom. */
  lemma {:induction false} FilterNoDup<T>(s: seq<T>, keep: T -> bool)
    requires NoDup(s)
    ensures NoDup(Filter(s, keep))
  {
    if |s| > 0 {
      NoDupTail(s);
      FilterNoDup(s[1..], keep);
      var rest := Filter(s[1..], keep);
      if keep(s[0]) {
        assert s[0] !in rest;
        var r := [s[0]] + rest;
        forall i, j | 0 <= i < j < |r| ensures r[i] != r[j] {
          if i == 0 {
            assert r[j] == rest[j - 1];
            assert r[j] in rest;
          } else {
            assert r[i] == rest[i - 1] && r[j] == rest[j - 1];
          }
        }
      }
    }
  }

  /** `FilterNoDup` for callers that do not know whether the list is duplicate-free. */
  lemma FilterKeepsNoDup<T>(s: seq<T>, keep: T -> bool)
    ensures NoDup(s) ==> NoDup(Filter(s, keep))
  {
    if NoDup(s) {
      FilterNoDup(s, keep);
    }
  }

  /** `Array.prototype.join(sep)` on strings: the parts with `sep` between consecutive ones. */
  function Join(parts: seq<string>, sep: string): string
  {
    if |parts| == 0 then ""
    else if |parts| == 1 then parts[0]
    else parts[0] + sep + Join(parts[1..], sep)
  }

  /** Joining one more part appends the separator and that part. */
  lemma {:induction false} JoinSnoc(parts: seq<string>, p: string, sep: string)
    requires |parts| > 0
    ensures Join(parts + [p], sep) == Join(parts, sep) + sep + p
  {
    if |parts| == 1 {
      assert parts + [p] == [parts[0], p];
      assert [parts[0], p][1..] == [p];
    } else {
      assert (parts + [p])[1..] == parts[1..] + [p];
      JoinSnoc(parts[1..], p, sep);
    }
  }

  /** The set of values occurring in `s`. */
  function Elems<T>(s: seq<T>): set<T>
  {
    set x | x in s
  }

  /** A duplicate-free sequence has as many distinct values as positions. */
  lemma {:induction false} NoDupCard<T>(s: seq<T>)
    requires NoDup(s)
    ensures |Elems(s)| == |s|
  {
    if |s| > 0 {
      NoDupTail(s);
      NoDupCard(s[1..]);
    }
  }

  /** The tail of a duplicate-free sequence is duplicate-free and lacks the head. */
  lemma NoDupTail<T>(s: seq<T>)
    requires |s| > 0 && NoDup(s)
    ensures NoDup(s[1..])
    ensures s[0] !in s[1..] && s[0] !in Elems(s[1..])
    ensures Elems(s) == {s[0]} + Elems(s[1..])
  {
    var t := s[1..];
    forall i, j | 0 <= i < j < |t| ensures t[i] != t[j] {
      assert t[i] == s[i + 1] && t[j] == s[j + 1];
    }
    forall k | 0 <= k < |t| ensures t[k] != s[0] {
      assert t[k] == s[k + 1];
    }
    assert s == [s[0]] + t;
  }
}

=== FILE: tax_form.dfy ===
/** The tax-settings dialog of the receipt page (`TaxSettingsModal`): its fields
    are prefilled from the receipt, edited as text, and normalised on submit into
    the rates `updateReceiptTaxes` stores. */
module TaxForm {
  import opened Wrappers
  import opened Entities
  import opened GroupTotals

  /** A form field holds either the number it was prefilled with or the text the
      user typed. */
  datatype Field = Num(n: real) | Text(s: string)

  /** JavaScript truthiness of a field: `0` and `''` are falsy; any other text,
      including `"0"`, is truthy. */
  predicate FieldTruthy(f: Field) {
    match f
    case Num(n) => n != 0.0
    case Text(s) => s != ""
  }

  /** `initialData = { sst: receipt.sst || '' }`: a truthy stored rate prefills
      its number, anything else an empty field. */
  function Prefill(rate: Option<real>): (f: Field)
    ensures FieldTruthy(f) <==> Truthy(rate)
    ensures Truthy(rate) ==> f == Num(rate.value)
  {
    if Truthy(rate) then Num(rate.value) else Text("")
  }

  /** `taxes.sst ? Number(taxes.sst) : null`. `toNumber` is JavaScript's
      `Number` on typed text; a falsy field becomes `null`. */
  function Submit(f: Field, toNumber: string -> real): (r: Option<real>)
    ensures r.None? <==> !FieldTruthy(f)
    ensures f.Num? && f.n != 0.0 ==> r == Some(f.n)
    ensures f.Text? && f.s != "" ==> r == Some(toNumber(f.s))
  {
    if !FieldTruthy(f) then None
    else match f
      case Num(n) => Some(n)
      case Text(s) => Some(toNumber(s))
  }

  /** `updateReceiptTaxes`: both submitted rates are written as given; nothing
      else on the receipt changes. */
  function UpdateReceiptTaxes(receipt: Receipt, sst: Option<real>, serviceCharge: Option<real>): (r: Receipt)
    ensures r.sst == sst && r.serviceCharge == serviceCharge
    ensures r.items == receipt.items && r.id == receipt.id && r.groupId == receipt.groupId
    ensures r.name == receipt.name && r.paidBy == receipt.paidBy
    ensures r.createdAt == receipt.createdAt && r.updatedAt == receipt.updatedAt
  {
    receipt.(sst := sst, serviceCharge := serviceCharge)
  }

  /** Submitting an untouched prefilled field gives back the stored rate with a
      falsy one normalised to `null`; the effective percentage is unchanged. */
  lemma PrefillSubmitRoundTrip(rate: Option<real>, toNumber: string -> real)
    ensures Submit(Prefill(rate), toNumber) == (if Truthy(rate) then rate else None)
    ensures Rate(Submit(Prefill(rate), toNumber)) == Rate(rate)
  {
  }

  /** Prefilling from a submitted value and submitting again changes nothing. */
  lemma SubmitPrefillIdempotent(f: Field, toNumber: string -> real)
    ensures var once := Submit(f, toNumber);
      Submit(Prefill(once), toNumber) == (if Truthy(once) then once else None)
  {
  }

  /** Saving the dialog without editing it leaves the receipt's total unchanged. */
  lemma UntouchedDialogKeepsTotal(receipt: Receipt, toNumber: string -> real)
    ensures var r := UpdateReceiptTaxes(receipt,
        Submit(Prefill(receipt.sst), toNumber), Submit(Prefill(receipt.serviceCharge), toNumber));
      CalculateReceiptTotal(r) == CalculateReceiptTotal(receipt)
  {
    PrefillSubmitRoundTrip(receipt.sst, toNumber);
    PrefillSubmitRoundTrip(receipt.serviceCharge, toNumber);
  }

  /** Typing "0" stores a rate of 0 rather than `null`; either way it adds nothing. */
  lemma TypedZeroAddsNothing(toNumber: string -> real)
    requires toNumber("0") == 0.0
    ensures Submit(Text("0"), toNumber) == Some(0.0)
    ensures Rate(Submit(Text("0"), toNumber)) == 0.0
  {
  }
}

=== FILE: wrappers.dfy ===
/** The optional-value datatype used for every field the documents may omit. */
module Wrappers {

  /** `None` stands for a missing, `null` or `undefined` field. */
  datatype Option<+T> = None | Some(value: T) {

    /** The wrapped value, or `default` when the field is missing. */
    function GetOr(default: T): T {
      match this
      case Some(v) => v
      case None => default
    }
  }
}
